=== FILE: README.md ===
# Ethereum call-trace post-processing, modelled in Dafny

The repository turns `debug_traceBlockByNumber` call-trace trees into reports
about a watch list of contract addresses. Five small Rust programs make up the core:

- **make-pretty-tsv** reads traces line by line and flattens each tree in
  pre-order. It keeps the calls whose `to` or `from` is watched. For each kept
  call it resolves the four-byte selector to a function signature and both
  addresses to contract names. Proxies resolve to `"Name -> ImplName"`. Both
  lookups go through append-only cache files. Each kept call becomes one row
  of six tab-separated fields. The program stops at a `DONE` line.
- **create-spreadsheet** reads those rows and the target list. For each
  target it builds a sheet with the inbound calls, stably sorted by
  descending from-name, then the outbound calls, stably sorted by descending
  to-name. Address cells are coloured by their relation to the target and to
  the watch list.
- **parse-traces** collects the distinct `(type, selector, from)` triples of
  calls made to one address. The comparison ignores ASCII case.
- **the block-trace fetcher** (`src/main.rs`) and **filter-block-trace**
  print the traces of a block whose call tree contains a call to an address.
  Each first runs a cheap substring test. The fetcher tests the node's raw
  response. filter-block-trace tests its input after ASCII lower-casing it,
  but leaves the address as given.

## Layout

| file | module | models |
|---|---|---|
| wrappers.dfy | `Wrappers` | `Option`, and `Result` whose `Err` holds the source's error text |
| text.dfy | `Text` | `split`, `lines`, `trim`, `contains`, ASCII lower-casing, string order |
| calltree.dfy | `CallTree` | trace nodes, `dfs_flatten_calls`, the `toplevel` marking |
| cache.dfy | `CacheLog` | the cache files and their loading |
| resolvers.dfy | `Resolvers` | `fetch_signature` and `fetch_contract_name` |
| pretty_tsv.dfy | `PrettyTsv` | make-pretty-tsv |
| sort.dfy | `StableSort` | `sort_by` with a reversed key comparison |
| spreadsheet.dfy | `Spreadsheet` | create-spreadsheet |
| parse_traces.dfy | `ParseTraces` | parse-traces |
| numbers.dfy | `Numbers` | `u64` argument parsing and the `0x{:x}` block parameter |
| trace_filter.dfy | `TraceMatch`, `FetchBlockTraces`, `FilterBlockTrace` | `dfs_has_call` and the two trace filters |

External services are parameters of the model:

- The signature database maps a selector to its candidate names.
- The source-verification service maps an address to its name and implementation.
- The node's RPC maps a block parameter to the response text.
- The JSON parser maps a line of text to a parsed value.
- The environment supplies the API key.

Every service returns `None` for any failure: network, JSON or a missing field.
Files are passed as `Option<string>`, where `None` means the file does not exist.
Printed output is the returned sequence of records, or the returned set for parse-traces.
A panic (`unwrap`, `expect`, out-of-range index) is an `Err` result.

### Behaviour worth knowing

- Cell colours in create-spreadsheet: the "other target" test runs over
  every watched address, the sheet's own target included. As a result, the
  From cells of a self-call on the target's own sheet get the other-target
  colour, and its To cells the target colour.
- When a cache file holds two lines with the same key, the later line wins.
  `collect` into a `HashMap` keeps the last insertion.
- Proxy resolution follows implementation links without any bound. An
  acyclic chain is resolved however long it is. A cyclic chain recurses
  until a lookup fails or the stack overflows. The model adds a fuel
  parameter: within its fuel it matches the source step for step, and when
  the fuel runs out the result is an error.

## Model

| member | source | states |
|---|---|---|
| CallTree.FlattenSize | make-pretty-tsv/src/main.rs:147-155 | the flattening has exactly one entry per node of the tree and starts with the root |
| CallTree.ChildBlock | make-pretty-tsv/src/main.rs:147-155 | pre-order: each sub-call's whole subtree is one contiguous block after its parent, and the blocks follow sibling order without gaps |
| CallTree.FlattenIterative | parse-traces/src/main.rs:30-38 | an explicit work-list traversal produces exactly the recursive pre-order flattening |
| CallTree.MarkTopLevel | make-pretty-tsv/src/main.rs:289-290 | a root with a `type` member gets type `toplevel`, and the first flattened call carries it while the rest are unchanged; a root without one is a failure (panic) |
| Text.JoinSplit | create-spreadsheet/src/main.rs:29 | splitting on a separator loses nothing: joining the pieces gives back the line |
| Text.SplitJoin | create-spreadsheet/src/main.rs:46 | joining separator-free fields and splitting again gives back the fields |
| Text.LinesUnLines | make-pretty-tsv/src/main.rs:89-90 | `lines()` over text written as newline-terminated lines returns those lines |
| Text.ContainsAt | filter-block-trace/src/main.rs:32 | substring containment holds exactly when the needle occurs at some offset |
| Text.AsciiLowerNormal | filter-block-trace/src/main.rs:29 | after ASCII lower-casing no upper-case ASCII letter remains, and lower-casing is idempotent |
| Text.LinesAsciiLower | make-pretty-tsv/src/main.rs:67-70 | lower-casing the whole file before splitting it into lines is the same as lower-casing each line |
| Text.TrimStartRemoves | make-pretty-tsv/src/main.rs:277 | `trim_start` cuts a prefix made only of white space, and what is left is empty or starts with a non-white-space character |
| Text.TrimEndRemoves | make-pretty-tsv/src/main.rs:277 | `trim_end` cuts a suffix made only of white space, and what is left is empty or ends with a non-white-space character |
| Text.TrimKeepsMiddle | make-pretty-tsv/src/main.rs:277 | `trim` keeps a middle segment of the line, cuts only white space on either side, and the segment neither starts nor ends with white space |
| CacheLog.ParseLine | make-pretty-tsv/src/main.rs:109-117 | a cache line parses iff it has a tab; the key is the text before the first tab and the value the text up to the next |
| CacheLog.Load | make-pretty-tsv/src/main.rs:102-108 | a missing cache file loads as the empty map |
| CacheLog.ApplyAppend | make-pretty-tsv/src/main.rs:89-98 | loading inserts in file order, so one more line is one more insertion and the last line for a key wins |
| CacheLog.ApplyKeys | make-pretty-tsv/src/main.rs:89-98 | the keys after loading are the old keys plus the keys of the log, nothing else |
| CacheLog.LoadLogText | make-pretty-tsv/src/main.rs:109-132 | round trip: a file of appended `key\tvalue` lines loads back as the map of those entries |
| CacheLog.LoadAfterAppend | make-pretty-tsv/src/main.rs:134-144 | a cache file followed by further appended entries reloads as the first file's map with the new entries replayed in order, so appending never loses or reorders earlier entries |
| Resolvers.FetchSignature | make-pretty-tsv/src/main.rs:158-201 | empty selector gives `""` with no lookup and the cache unchanged; a hit gives the cached value with no lookup; a miss succeeds iff the database lists a candidate, returns the first one and adds exactly that one entry |
| Resolvers.FetchSignatureIdempotent | make-pretty-tsv/src/main.rs:168-171 | a second resolution of the same selector answers the same from the cache with no lookup |
| Resolvers.FetchSignatureSound | make-pretty-tsv/src/main.rs:163-200 | from a cache of first candidates, the signature column is the database's first candidate (or empty for no selector) |
| Resolvers.FetchContractName | make-pretty-tsv/src/main.rs:204-257 | empty address gives `""` and a hit the cached value, with the cache unchanged; a successful miss needed a lookup and the API key, and ends by appending the composed name under the original address; the cache only grows |
| Resolvers.FetchContractNameMiss | make-pretty-tsv/src/main.rs:239-256 | on a miss the name is the declared name, or for a proxy `declared + " -> " + resolve(implementation)`, and the implementation's own entry is cached too |
| Resolvers.FetchContractNameIdempotent | make-pretty-tsv/src/main.rs:212-214 | a second resolution of the same address answers the same from the cache with no lookup |
| Resolvers.FetchContractNameSound | make-pretty-tsv/src/main.rs:245-254 | with a cache of true names, the answer is the address's proxy chain of declared names joined by `" -> "`, and the cache stays true |
| Resolvers.FetchContractNameComplete | make-pretty-tsv/src/main.rs:245-247 | with the key available and enough fuel for the chain, resolution succeeds with the composed chain name |
| PrettyTsv.SelectorOf | make-pretty-tsv/src/main.rs:25-29 | the selector is the first 10 characters of the input when it has at least 10, otherwise empty |
| PrettyTsv.UglyFromJson | make-pretty-tsv/src/main.rs:22-33 | a non-string type is a failure (panic); missing `input`/`from`/`to` read as empty |
| PrettyTsv.LoadTargets | make-pretty-tsv/src/main.rs:66-81 | targets are the text before the first comma of each line of the lower-cased file |
| PrettyTsv.LineFields | make-pretty-tsv/src/main.rs:304-312 | a printed row splits into exactly six fields: call type, signature, from, to, from name, to name |
| PrettyTsv.FromUgly | make-pretty-tsv/src/main.rs:46-63 | the enriched record keeps the call's type, from and to, and the caches only grow |
| PrettyTsv.FromUglySound | make-pretty-tsv/src/main.rs:51-53 | enrichment from true caches yields the true signature and names and keeps both caches true |
| PrettyTsv.ProcessCallsKept | make-pretty-tsv/src/main.rs:295-314 | whatever the caches hold, a trace processed without failure prints exactly one row per call whose `to` or `from` is watched, in traversal order, with that call's type, `from` and `to` |
| PrettyTsv.ProcessCallsRows | make-pretty-tsv/src/main.rs:295-314 | while the caches hold true answers, the signature and name columns of those rows are the true ones and the caches stay true |
| PrettyTsv.StopsAtDone | make-pretty-tsv/src/main.rs:271-279 | the run over the input equals the run over the lines before any `DONE` line: nothing after it is processed |
| PrettyTsv.OutputIsPrefix | make-pretty-tsv/src/main.rs:295-317 | rows printed for a prefix of the input are never retracted by later input, errors included |
| PrettyTsv.Main | make-pretty-tsv/src/main.rs:259-268 | a missing targets file, or a cache file that cannot be parsed (selector cache first, then name cache), ends the program with that error before any row is printed; missing cache files start the loop from empty caches; otherwise the loop runs over the input from the loaded targets and caches |
| StableSort.SortDescCorrect | create-spreadsheet/src/main.rs:110-111 | the sort yields descending keys, a permutation of its input, and keeps input order among equal keys |
| Spreadsheet.ParseTarget | create-spreadsheet/src/main.rs:29-34 | the address is the first comma field lower-cased, the label the second unchanged; a line without a comma is a failure (panic) |
| Spreadsheet.ParseTargets | create-spreadsheet/src/main.rs:24-39 | the target list has one target per line, in order, and fails iff some line fails |
| Spreadsheet.SameWatchList | make-pretty-tsv/src/main.rs:66-81 | both programs read the same addresses from one target file |
| Spreadsheet.ParseRecord | create-spreadsheet/src/main.rs:46-56 | a data line with at least six tab fields maps them to the record fields in order; fewer is a failure (panic) |
| Spreadsheet.ParseRecordLine | create-spreadsheet/src/main.rs:46-56 | a row printed by make-pretty-tsv reads back as the same record |
| Spreadsheet.ParseData | create-spreadsheet/src/main.rs:41-61 | records of type `toplevel` are dropped and every other parsed record is kept |
| Spreadsheet.ParseDataSelects | create-spreadsheet/src/main.rs:41-61 | the data are exactly the records of the lines that parse and are not `toplevel`, in line order, once per such line |
| Spreadsheet.GroupCounts | create-spreadsheet/src/main.rs:102-109 | inbound holds exactly the records with `to` equal to the target and outbound exactly those with `from` equal to it, with their multiplicities |
| Spreadsheet.GroupsConcat | create-spreadsheet/src/main.rs:102-109 | each group keeps data order: grouping distributes over concatenation, and a single record is in a group exactly when it matches |
| Spreadsheet.OrderedRows | create-spreadsheet/src/main.rs:110-113 | the rows are the inbound group sorted stably by descending from-name, then the outbound group sorted stably by descending to-name |
| Spreadsheet.SelfCallTwice | create-spreadsheet/src/main.rs:102-113 | a call from the target to itself is listed in both groups |
| Spreadsheet.DataRow | create-spreadsheet/src/main.rs:115-142 | a data row holds the six fields in column order |
| Spreadsheet.DataRowFormats | create-spreadsheet/src/main.rs:144-162 | after the overriding writes, To/To Name are primary if `to` is the target, else other-target if `to` is watched, else plain; From/From Name are primary if `to` is not the target, else other-target if `from` is watched, else plain |
| Spreadsheet.OnePrimarySide | create-spreadsheet/src/main.rs:156-162 | exactly one side of each row gets the target colour |
| Spreadsheet.SheetLayout | create-spreadsheet/src/main.rs:85-142 | the sheet can be written iff its last data row is within the 1,048,576-row limit; it is then named by the label, with row 0 bold titles, row 1 address and label, row 2 empty, row 3 bold column names, record `i` at row `4 + i`, and as many data rows as the two groups together |
| Spreadsheet.CreateSheets | create-spreadsheet/src/main.rs:176-178 | the sheets are built in target order and the loop succeeds iff every target's sheet can be written, each result being that target's sheet |
| Spreadsheet.Main | create-spreadsheet/src/main.rs:168-186 | a data-file error comes first and is returned as is, then a targets-file error; the program succeeds iff both load and every sheet fits, giving one sheet per target in file order |
| Spreadsheet.MainSucceeds | create-spreadsheet/src/main.rs:168-186 | with both files loaded, a data file of at most 524,286 records always yields one sheet per target |
| ParseTraces.CallFromJson | parse-traces/src/main.rs:16-26 | missing `type` or `from` read as `""`; the selector is present iff the input has at least 10 characters |
| ParseTraces.CollectMembers | parse-traces/src/main.rs:58-64 | a triple is collected iff some flattened call has a string `to` whose ASCII lower-case equals the target and yields that triple |
| ParseTraces.CollectLines | parse-traces/src/main.rs:45-65 | triples collected from earlier lines are never lost |
| ParseTraces.CollectLinesOk | parse-traces/src/main.rs:45-53 | the run over the file succeeds iff every line parses to a trace whose root has a `type` member |
| ParseTraces.CollectLinesMembers | parse-traces/src/main.rs:45-64 | a triple is in the final set iff it was already there or some call of some line's trace has a `to` that lower-cases to the target and yields it |
| ParseTraces.Main | parse-traces/src/main.rs:40-46 | a missing argument or a missing file is an error; otherwise the run succeeds iff every line of the file parses to a markable trace |
| ParseTraces.MainCollects | parse-traces/src/main.rs:40-70 | the printed set is exactly the triples of the calls, on any line, whose `to` lower-cases to the lower-cased first argument |
| ParseTraces.TopLevelCollected | parse-traces/src/main.rs:52-61 | when the outermost call is to the target, its triple carries the `toplevel` type |
| ParseTraces.RowColumns | parse-traces/src/main.rs:69 | a row is `type,selector-or-empty,from` |
| ParseTraces.EmitRows | parse-traces/src/main.rs:67-70 | one row per distinct triple, covering the whole set |
| Numbers.ParseU64 | src/main.rs:30 | a parsed block number fits in 64 bits |
| Numbers.ParseU64Decimal | src/main.rs:30 | every 64-bit number written in decimal parses back to itself |
| Numbers.Hex | src/main.rs:38 | hex rendering is non-empty lower-case hex digits without leading zeros, `"0"` for zero |
| Numbers.BlockParamRoundTrip | src/main.rs:38 | the block parameter is `0x` and lower-case hex digits that read back as the block number |
| TraceMatch.HasCallFlattened | src/main.rs:7-23 | `dfs_has_call` holds iff some node of the pre-order flattening has `to` exactly equal to the address |
| TraceMatch.Select | src/main.rs:70-74 | only traces whose `result` satisfies `dfs_has_call` are printed |
| TraceMatch.SelectConcat | filter-block-trace/src/main.rs:46-50 | printing keeps input order and prints a trace iff it matches |
| FetchBlockTraces.Main | src/main.rs:25-77 | any argument count other than three is an error; the node is asked for `0x`-hex of the block; if the address is not in the response text the program succeeds with no output; printed traces match |
| FetchBlockTraces.MainPrintsSelection | src/main.rs:55-74 | when the address occurs in the response, the printed traces are exactly the matching ones in order |
| FilterBlockTrace.Main | filter-block-trace/src/main.rs:24-53 | the input is lower-cased but the address is not; if the address is not a substring the program succeeds with no output; otherwise it succeeds iff the lower-cased input parses to a trace array, and then prints exactly the matching traces in order |
| FilterBlockTrace.UpperCaseTargetPrintsNothing | filter-block-trace/src/main.rs:29-34 | an address with an upper-case ASCII letter never produces output |

## Left out

- HTTP requests to the signature database, the verification service and the node, and their JSON response shapes. Oracle functions replace them; any failure is `None`.
- JSON parsing and serialisation. Trees are the `Node` datatype, and a printed trace is its text.
- File and standard-input I/O, including the loop ending on an unreadable stdin line. Inputs are strings or sequences of lines.
- Write failures when appending to a cache file. The model treats every append as successful.
- The spreadsheet library. Fonts and colours are the `Format` enum. Sheet-name validation and the `save` step are not modelled.
- The `u32` conversion of a data row index in create-spreadsheet. The worksheet's 1,048,576-row limit (`MaxRows`) makes the write fail first, so the conversion can never fail.
- `to_lowercase` and byte-based `len`/slicing. The model lower-cases ASCII letters only and counts characters, not UTF-8 bytes. Addresses and selectors are ASCII hex.
- The regex in the block-trace fetcher. It matches an escaped literal, modelled as substring containment.
- Resolvers.FetchContractName: does not model unbounded recursion. An acyclic proxy chain longer than the fuel is an error in the model, whereas the source resolves it; `FetchContractNameComplete` shows that enough fuel gives the source's answer. A cyclic chain is an error in the model, whereas the source recurses until a lookup fails or the stack overflows.
- A trace entry without a `result` member. It is represented as a node with no `to` and no sub-calls, which `dfs_has_call` rejects just as it rejects JSON `null`.
- CacheLog.LoadAfterAppend: relates a file to entries appended to it, but no member ties a whole run's final caches to the entries it wrote. Runs do not carry the appended log, and on an error the state returned is from before the failing call, though the source may already have appended an entry in that call.
- The order of parse-traces output. A `HashSet` is printed in an unspecified order, and `EmitRows` allows any order.

=== FILE: cache.dfy ===
/** The persistent lookup caches (`selector_cache.tsv`, `contract_name_cache.tsv`):
    an append-only log of `key\tvalue` lines, loaded into a map at start-up. */
module CacheLog {

  import opened Wrappers
  import opened Text

  type Cache = map<string, string>

  datatype Entry = Entry(key: string, value: string)

  /** The in-memory map after inserting the entries of `log`, in order, into
      `c` (`HashMap::insert` / `collect`: the last entry for a key wins). */
  function Apply(c: Cache, log: seq<Entry>): Cache
    decreases |log|
  {
    if log == [] then c else Apply(c[log[0].key := log[0].value], log[1..])
  }

  /** Replaying one more entry is one more insertion. */
  lemma {:induction false} ApplyAppend(c: Cache, log: seq<Entry>, e: Entry)
    ensures Apply(c, log + [e]) == Apply(c, log)[e.key := e.value]
    decreases |log|
  {
    if log == [] {
      assert ([] + [e])[1..] == [];
    } else {
      assert (log + [e])[1..] == log[1..] + [e];
      ApplyAppend(c[log[0].key := log[0].value], log[1..], e);
    }
  }

  lemma {:induction false} ApplyConcat(c: Cache, a: seq<Entry>, b: seq<Entry>)
    ensures Apply(c, a + b) == Apply(Apply(c, a), b)
    decreases |a|
  {
    if a == [] {
      assert a + b == b;
    } else {
      assert (a + b)[1..] == a[1..] + b;
      ApplyConcat(c[a[0].key := a[0].value], a[1..], b);
    }
  }

  /** Replaying a log only adds keys: every key of `c` and every key of the
      log is a key afterwards, and nothing else is. */
  lemma {:induction false} ApplyKeys(c: Cache, log: seq<Entry>)
    ensures Apply(c, log).Keys == c.Keys + set i | 0 <= i < |log| :: log[i].key
    decreases |log|
  {
    if log != [] {
      ApplyKeys(c[log[0].key := log[0].value], log[1..]);
      var rest := set i | 0 <= i < |log[1..]| :: log[1..][i].key;
      var all := set i | 0 <= i < |log| :: log[i].key;
      assert all == {log[0].key} + rest by {
        forall k | k in all ensures k in {log[0].key} + rest {
          var i :| 0 <= i < |log| && log[i].key == k;
          if i > 0 {
            assert log[1..][i - 1].key == k;
          }
        }
        forall k | k in rest ensures k in all {
          var i :| 0 <= i < |log[1..]| && log[1..][i].key == k;
          assert log[i + 1].key == k;
        }
      }
    }
  }

  /** The line written for an entry: its key, a tab, then its value (the
      line ending is added when lines are joined). */
  function Encode(e: Entry): string {
    e.key + "\t" + e.value
  }

  function EncodeAll(log: seq<Entry>): (r: seq<string>)
    ensures |r| == |log|
    ensures forall i :: 0 <= i < |log| ==> r[i] == Encode(log[i])
  {
    if log == [] then [] else [Encode(log[0])] + EncodeAll(log[1..])
  }

  /** The file content after appending every entry of `log` to an empty file. */
  function LogText(log: seq<Entry>): string {
    UnLines(EncodeAll(log))
  }

  /** A cache line splits at tabs into key and value: a line without a tab
      makes the program panic, and text after a second tab is dropped. */
  function ParseLine(line: string): (r: Result<Entry>)
    ensures r.Ok? <==> '\t' in line
    ensures r.Ok? ==> |Split(line, '\t')| >= 2
    ensures r.Ok? ==> r.value == Entry(Split(line, '\t')[0], Split(line, '\t')[1])
  {
    var parts := Split(line, '\t');
    if |parts| < 2 then
      JoinSplit(line, '\t');
      Err("called `Option::unwrap()` on a `None` value: cache line without a tab")
    else
      assert '\t' in line by {
        JoinSplit(line, '\t');
        assert Join(parts, '\t') == parts[0] + ['\t'] + Join(parts[1..], '\t');
        assert Join(parts, '\t')[|parts[0]|] == '\t';
      }
      Ok(Entry(parts[0], parts[1]))
  }

  function ParseLines(lines: seq<string>): (r: Result<seq<Entry>>)
    ensures r.Ok? <==> forall i :: 0 <= i < |lines| ==> '\t' in lines[i]
    ensures r.Ok? ==> |r.value| == |lines|
    ensures r.Ok? ==> forall i :: 0 <= i < |lines| ==> ParseLine(lines[i]) == Ok(r.value[i])
  {
    if lines == [] then Ok([])
    else
      var e :- ParseLine(lines[0]);
      var rest :- ParseLines(lines[1..]);
      Ok([e] + rest)
  }

  /** `load_selector_cache` / `load_contract_name_cache`: a missing file is
      created empty and gives the empty map; otherwise every line is parsed
      and the entries are inserted in file order. */
  function Load(file: Option<string>): (r: Result<Cache>)
    ensures file.None? ==> r == Ok(map[])
  {
    match file
    case None => Ok(map[])
    case Some(text) =>
      var entries :- ParseLines(Lines(text));
      Ok(Apply(map[], entries))
  }

  /** Keys and values that survive the tab-separated line format. */
  predicate Storable(e: Entry) {
    && '\t' !in e.key && '\n' !in e.key
    && '\t' !in e.value && '\n' !in e.value
    && (e.value == [] || e.value[|e.value| - 1] != '\r')
  }

  lemma EncodeIsLine(e: Entry)
    requires Storable(e)
    ensures IsLine(Encode(e))
    ensures ParseLine(Encode(e)) == Ok(e)
  {
    var line := Encode(e);
    assert line == Join([e.key, e.value], '\t') by {
      assert [e.key, e.value][1..] == [e.value];
    }
    SplitJoin([e.key, e.value], '\t');
    assert line[|line| - 1] == if e.value == [] then '\t' else e.value[|e.value| - 1];
  }

  /** Round trip: loading a file written by appending the entries of `log`
      yields the map obtained by inserting those entries in order. */
  lemma LoadLogText(log: seq<Entry>)
    requires forall i :: 0 <= i < |log| ==> Storable(log[i])
    ensures Load(Some(LogText(log))) == Ok(Apply(map[], log))
  {
    var lines := EncodeAll(log);
    forall i | 0 <= i < |lines| ensures IsLine(lines[i]) && ParseLine(lines[i]) == Ok(log[i]) {
      EncodeIsLine(log[i]);
    }
    LinesUnLines(lines);
    var r := ParseLines(lines);
    assert r.Ok? by {
      forall i | 0 <= i < |lines| ensures '\t' in lines[i] {
        assert ParseLine(lines[i]).Ok?;
      }
    }
    assert r.value == log;
  }

  /** Appending to an existing log and reloading agrees with updating the
      in-memory map: what a later run loads is what this run ended with. */
  lemma LoadAfterAppend(log: seq<Entry>, appended: seq<Entry>)
    requires forall i :: 0 <= i < |log| ==> Storable(log[i])
    requires forall i :: 0 <= i < |appended| ==> Storable(appended[i])
    ensures Load(Some(LogText(log) + LogText(appended))) == Ok(Apply(Apply(map[], log), appended))
  {
    var all := log + appended;
    assert forall i :: 0 <= i < |all| ==> Storable(all[i]) by {
      forall i | 0 <= i < |all| ensures Storable(all[i]) {
        if i < |log| {
          assert all[i] == log[i];
        } else {
          assert all[i] == appended[i - |log|];
        }
      }
    }
    assert EncodeAll(all) == EncodeAll(log) + EncodeAll(appended);
    UnLinesAppend(EncodeAll(log), EncodeAll(appended));
    assert LogText(all) == LogText(log) + LogText(appended);
    LoadLogText(all);
    ApplyConcat(map[], log, appended);
  }
}

=== FILE: calltree.dfy ===
/** The call-trace tree produced by the node's `callTracer`, as the programs
    read it, and its pre-order flattening (`dfs_flatten_calls`). */
module CallTree {

  import opened Wrappers

  /** A JSON member as the programs see it: missing, a string, or present
      with some other JSON value. `as_str()` yields a value only for `Str`;
      `get_mut` succeeds for `Str` and `NonString`. */
  datatype Field = Absent | Str(s: string) | NonString {

    /** `value[key].as_str()` */
    function AsStr(): Option<string> {
      if Str? then Some(s) else None
    }

    /** `value[key].as_str().unwrap_or_default()` */
    function StrOrEmpty(): string {
      if Str? then s else ""
    }
  }

  /** One call frame. `calls` holds the sub-calls in order; a missing or
      non-array `calls` member is the empty sequence, and a JSON value that is
      not an object is a node whose members are all `Absent`. */
  datatype Node = Node(ty: Field, input: Field, from: Field, to: Field, calls: seq<Node>)

  /** `dfs_flatten_calls`: the node, then the flattening of each sub-call in order. */
  function Flatten(n: Node): seq<Node> {
    [n] + FlattenAll(n.calls)
  }

  function FlattenAll(ns: seq<Node>): seq<Node> {
    if ns == [] then [] else Flatten(ns[0]) + FlattenAll(ns[1..])
  }

  /** Number of nodes of a tree. */
  function Size(n: Node): nat {
    1 + SizeAll(n.calls)
  }

  function SizeAll(ns: seq<Node>): nat {
    if ns == [] then 0 else Size(ns[0]) + SizeAll(ns[1..])
  }

  /** The flattening visits every node once: its length is the node count,
      and the root comes first. */
  lemma {:induction false} FlattenSize(n: Node)
    ensures |Flatten(n)| == Size(n)
    ensures Flatten(n)[0] == n
  {
    FlattenAllSize(n.calls);
  }

  lemma {:induction false} FlattenAllSize(ns: seq<Node>)
    ensures |FlattenAll(ns)| == SizeAll(ns)
  {
    if ns != [] {
      FlattenSize(ns[0]);
      FlattenAllSize(ns[1..]);
    }
  }

  lemma {:induction false} FlattenAllAppend(a: seq<Node>, b: seq<Node>)
    ensures FlattenAll(a + b) == FlattenAll(a) + FlattenAll(b)
  {
    if a == [] {
      assert a + b == b;
    } else {
      assert (a + b)[0] == a[0];
      assert (a + b)[1..] == a[1..] + b;
      FlattenAllAppend(a[1..], b);
    }
  }

  /** Where the `i`-th sub-call's subtree starts in the parent's flattening:
      after the parent and after the subtrees of the earlier siblings. */
  function ChildOffset(n: Node, i: nat): nat
    requires i <= |n.calls|
  {
    1 + SizeAll(n.calls[..i])
  }

  /** Pre-order layout: the parent is at position 0, the `i`-th sub-call's
      whole subtree is the contiguous block starting at `ChildOffset(n, i)`,
      and the blocks follow each other in sibling order without gaps. */
  lemma ChildBlock(n: Node, i: nat)
    requires i < |n.calls|
    ensures ChildOffset(n, i) + Size(n.calls[i]) == ChildOffset(n, i + 1) <= |Flatten(n)|
    ensures Flatten(n)[ChildOffset(n, i)..ChildOffset(n, i + 1)] == Flatten(n.calls[i])
  {
    var cs := n.calls;
    assert cs == cs[..i] + [cs[i]] + cs[i + 1..];
    assert cs[..i + 1] == cs[..i] + [cs[i]];
    FlattenAllAppend(cs[..i] + [cs[i]], cs[i + 1..]);
    FlattenAllAppend(cs[..i], [cs[i]]);
    assert FlattenAll([cs[i]]) == Flatten(cs[i]) by {
      assert [cs[i]][1..] == [];
    }
    FlattenAllSize(cs[..i]);
    FlattenAllSize(cs[..i + 1]);
    FlattenAllSize(cs);
    FlattenSize(cs[i]);
    FlattenSize(n);
    var pre := FlattenAll(cs[..i]);
    assert Flatten(n) == [n] + pre + Flatten(cs[i]) + FlattenAll(cs[i + 1..]);
  }

  /** The same flattening computed with an explicit work list instead of
      recursion: the next node to emit is at the front of `todo`. */
  method FlattenIterative(root: Node) returns (out: seq<Node>)
    ensures out == Flatten(root)
  {
    out := [];
    var todo := [root];
    assert FlattenAll(todo) == Flatten(root) by {
      assert todo[1..] == [];
    }
    while todo != []
      invariant out + FlattenAll(todo) == Flatten(root)
      decreases |Flatten(root)| - |out|
    {
      var n := todo[0];
      FlattenAllAppend(n.calls, todo[1..]);
      out := out + [n];
      todo := n.calls + todo[1..];
    }
  }

  /** How one line of trace input parses: not JSON, JSON without a `result`
      member, or the call tree under `result`. */
  datatype Parsed = Malformed | NoResult | Trace(root: Node)

  /** The root's `type` member is overwritten with the sentinel string
      `"toplevel"`; a root without a `type` member makes the program panic. */
  function MarkTopLevel(root: Node): (r: Result<Node>)
    ensures r.Ok? <==> !root.ty.Absent?
    ensures r.Ok? ==> Flatten(r.value)[0].ty == Str("toplevel")
    ensures r.Ok? ==> Flatten(r.value)[1..] == Flatten(root)[1..]
    ensures r.Ok? ==> r.value.(ty := root.ty) == root
  {
    if root.ty.Absent? then Err("called `Option::unwrap()` on a `None` value: trace has no type")
    else Ok(root.(ty := Str("toplevel")))
  }
}

=== FILE: numbers.dfy ===
/** The block-number handling of the block-trace fetcher: `u64` parsing of
    the command-line argument and the `0x{:x}` rendering sent to the node. */
module Numbers {

  import opened Wrappers

  const U64Limit: nat := 0x1_0000_0000_0000_0000

  predicate IsDecimalDigit(c: char) {
    '0' <= c <= '9'
  }

  /** Value of a string of decimal digits, most significant first. */
  function DecimalValue(s: string): nat
    requires forall i :: 0 <= i < |s| ==> IsDecimalDigit(s[i])
  {
    if s == [] then 0
    else
      assert IsDecimalDigit(s[|s| - 1]);
      DecimalValue(s[..|s| - 1]) * 10 + (s[|s| - 1] as int - '0' as int)
  }

  /** `str::parse::<u64>()`: an optional `+`, then one or more decimal digits
      whose value fits in 64 bits; anything else is an error. */
  function ParseU64(s: string): (r: Option<nat>)
    ensures r.Some? ==> r.value < U64Limit
  {
    var digits := if s != [] && s[0] == '+' then s[1..] else s;
    if digits == [] || exists i :: 0 <= i < |digits| && !IsDecimalDigit(digits[i]) then None
    else
      var v := DecimalValue(digits);
      if v < U64Limit then Some(v) else None
  }

  /** Decimal rendering without leading zeros (`"0"` for zero). */
  function Decimal(n: nat): (r: string)
    ensures r != [] && forall i :: 0 <= i < |r| ==> IsDecimalDigit(r[i])
  {
    if n < 10 then [('0' as int + n) as char]
    else Decimal(n / 10) + [('0' as int + n % 10) as char]
  }

  lemma {:induction false} DecimalValueOfDecimal(n: nat)
    ensures DecimalValue(Decimal(n)) == n
  {
    if n >= 10 {
      var s := Decimal(n);
      assert s[..|s| - 1] == Decimal(n / 10);
      DecimalValueOfDecimal(n / 10);
    }
  }

  /** Every 64-bit number written in decimal parses back to itself. */
  lemma ParseU64Decimal(n: nat)
    requires n < U64Limit
    ensures ParseU64(Decimal(n)) == Some(n)
  {
    DecimalValueOfDecimal(n);
  }

  // ---------------------------------------------------------------------
  // Lower-case hexadecimal (`format!("0x{:x}", n)`)
  // ---------------------------------------------------------------------

  const HexAlphabet: string := "0123456789abcdef"

  function HexDigitValue(c: char): nat
    requires c in HexAlphabet
  {
    if '0' <= c <= '9' then c as int - '0' as int else c as int - 'a' as int + 10
  }

  /** `{:x}`: lower-case hex digits, no leading zeros, `"0"` for zero. */
  function Hex(n: nat): (r: string)
    ensures r != [] && forall i :: 0 <= i < |r| ==> r[i] in HexAlphabet
    ensures n > 0 ==> r[0] != '0'
    ensures n == 0 ==> r == "0"
  {
    if n < 16 then [HexAlphabet[n]] else Hex(n / 16) + [HexAlphabet[n % 16]]
  }

  /** Value of a string of hex digits, most significant first. */
  function HexValue(s: string): nat
    requires forall i :: 0 <= i < |s| ==> s[i] in HexAlphabet
  {
    if s == [] then 0 else HexValue(s[..|s| - 1]) * 16 + HexDigitValue(s[|s| - 1])
  }

  lemma {:induction false} HexValueOfHex(n: nat)
    ensures HexValue(Hex(n)) == n
  {
    if n >= 16 {
      var s := Hex(n);
      assert s[..|s| - 1] == Hex(n / 16);
      HexValueOfHex(n / 16);
    }
    assert forall d :: 0 <= d < 16 ==> HexDigitValue(HexAlphabet[d]) == d;
  }

  /** The block parameter of `debug_traceBlockByNumber`. */
  function BlockParam(n: nat): (r: string)
    ensures |r| >= 3 && r[..2] == "0x"
  {
    "0x" + Hex(n)
  }

  /** The block parameter names the block: it is `0x` followed by lower-case
      hex digits without leading zeros, and those digits read back as `n`. */
  lemma BlockParamRoundTrip(n: nat)
    ensures var d := BlockParam(n)[2..];
      && d == Hex(n)
      && (forall i :: 0 <= i < |d| ==> d[i] in HexAlphabet)
      && (|d| > 1 ==> d[0] != '0')
      && HexValue(d) == n
  {
    HexValueOfHex(n);
  }
}

=== FILE: parse_traces.dfy ===
/** parse-traces: the distinct `(type, selector, from)` triples of every call
    made to one address, over a file of traces, printed as CSV rows. */
module ParseTraces {

  import opened Wrappers
  import opened Text
  import opened CallTree
  import PrettyTsv

  datatype Call = Call(callType: string, selector: Option<string>, from: string)

  /** `Call::from_json`: missing members read as the empty string; the
      selector is present only when the call data has at least ten characters. */
  function CallFromJson(n: Node): (r: Call)
    ensures r.callType == n.ty.StrOrEmpty() && r.from == n.from.StrOrEmpty()
    ensures r.selector.Some? <==> |n.input.StrOrEmpty()| >= 10
    ensures r.selector.Some? ==> r.selector.value == PrettyTsv.SelectorOf(n.input.StrOrEmpty())
  {
    var input := n.input.StrOrEmpty();
    Call(n.ty.StrOrEmpty(), if |input| >= 10 then Some(input[..10]) else None, n.from.StrOrEmpty())
  }

  /** The call's `to` is a string equal to the (lower-cased) target once
      ASCII-lower-cased. */
  predicate CallsTarget(n: Node, target: string) {
    n.to.Str? && AsciiLower(n.to.s) == target
  }

  /** The collecting loop over one trace's flattened calls. */
  function Collect(calls: seq<Node>, target: string, acc: set<Call>): set<Call> {
    if calls == [] then acc
    else if CallsTarget(calls[0], target) then Collect(calls[1..], target, acc + {CallFromJson(calls[0])})
    else Collect(calls[1..], target, acc)
  }

  /** A triple is collected exactly when it was already collected or some
      call of the trace calls the target and yields it. */
  lemma {:induction false} CollectMembers(calls: seq<Node>, target: string, acc: set<Call>, c: Call)
    ensures c in Collect(calls, target, acc) <==>
      c in acc || exists i :: 0 <= i < |calls| && CallsTarget(calls[i], target) && CallFromJson(calls[i]) == c
  {
    if calls != [] {
      CollectMembers(calls[1..], target, acc + {CallFromJson(calls[0])}, c);
      CollectMembers(calls[1..], target, acc, c);
      if exists i :: 0 <= i < |calls| && CallsTarget(calls[i], target) && CallFromJson(calls[i]) == c {
        var i :| 0 <= i < |calls| && CallsTarget(calls[i], target) && CallFromJson(calls[i]) == c;
        if i > 0 {
          assert calls[1..][i - 1] == calls[i];
        }
      }
      if exists i :: 0 <= i < |calls[1..]| && CallsTarget(calls[1..][i], target) && CallFromJson(calls[1..][i]) == c {
        var i :| 0 <= i < |calls[1..]| && CallsTarget(calls[1..][i], target) && CallFromJson(calls[1..][i]) == c;
        assert calls[i + 1] == calls[1..][i];
      }
    }
  }

  /** One input line: parse, mark the root `toplevel`, flatten, collect. */
  function CollectLine(line: string, target: string, acc: set<Call>, parse: string -> Parsed): Result<set<Call>> {
    match parse(line)
    case Malformed => Err("Failed to parse JSON input")
    case NoResult => Err("no result in response")
    case Trace(root) =>
      var marked :- MarkTopLevel(root);
      Ok(Collect(Flatten(marked), target, acc))
  }

  function CollectLines(lines: seq<string>, target: string, acc: set<Call>, parse: string -> Parsed): (r: Result<set<Call>>)
    ensures r.Ok? ==> acc <= r.value
  {
    if lines == [] then Ok(acc)
    else
      var next :- CollectLine(lines[0], target, acc, parse);
      CollectMembersGrow(Flatten(parse(lines[0]).root.(ty := Str("toplevel"))), target, acc);
      CollectLines(lines[1..], target, next, parse)
  }

  lemma CollectMembersGrow(calls: seq<Node>, target: string, acc: set<Call>)
    ensures acc <= Collect(calls, target, acc)
  {
    forall c | c in acc ensures c in Collect(calls, target, acc) {
      CollectMembers(calls, target, acc, c);
    }
  }

  /** `main` of parse-traces: the target is the first argument, lower-cased;
      every line of the file must parse. Nothing is printed unless all lines
      were read. */
  function Main(args: seq<string>, file: Option<string>, parse: string -> Parsed): (r: Result<set<Call>>)
    ensures |args| < 2 ==> r.Err?
    ensures file.None? ==> r.Err?
    ensures r.Ok? <==> |args| >= 2 && file.Some? && forall i :: 0 <= i < |Lines(file.value)| ==> LineOk(Lines(file.value)[i], parse)
  {
    if |args| < 2 then Err("Missing target address argument")
    else
      var target := AsciiLower(args[1]);
      var text :- Need(file, "Failed to read file");
      CollectLinesOk(Lines(text), target, {}, parse);
      CollectLines(Lines(text), target, {}, parse)
  }
  /** A line parses to a trace whose root can be marked. */
  predicate LineOk(line: string, parse: string -> Parsed) {
    parse(line).Trace? && MarkTopLevel(parse(line).root).Ok?
  }

  /** The flattened calls of a line's marked trace; none when the line fails. */
  function LineCalls(line: string, parse: string -> Parsed): seq<Node> {
    if LineOk(line, parse) then Flatten(MarkTopLevel(parse(line).root).value) else []
  }

  /** Some call of `calls` is to the target and yields `c`. */
  predicate Yields(calls: seq<Node>, target: string, c: Call) {
    exists j :: 0 <= j < |calls| && CallsTarget(calls[j], target) && CallFromJson(calls[j]) == c
  }

  /** The run over the file succeeds iff every line parses to a trace whose
      root has a `type` member. */
  lemma {:induction false} CollectLinesOk(lines: seq<string>, target: string, acc: set<Call>, parse: string -> Parsed)
    ensures CollectLines(lines, target, acc, parse).Ok? <==> forall i :: 0 <= i < |lines| ==> LineOk(lines[i], parse)
  {
    if lines != [] {
      var rest := lines[1..];
      if LineOk(lines[0], parse) {
        var next := Collect(LineCalls(lines[0], parse), target, acc);
        assert CollectLine(lines[0], target, acc, parse) == Ok(next);
        CollectLinesOk(rest, target, next, parse);
        assert CollectLines(lines, target, acc, parse) == CollectLines(rest, target, next, parse);
        forall i | 0 < i < |lines| ensures lines[i] == rest[i - 1] {}
      }
    }
  }

  /** The whole file: a triple is collected exactly when it was already
      collected or some call of some line's trace is to the target and
      yields it. */
  lemma {:induction false} CollectLinesMembers(lines: seq<string>, target: string, acc: set<Call>, parse: string -> Parsed, c: Call)
    ensures CollectLines(lines, target, acc, parse).Ok? ==>
      (c in CollectLines(lines, target, acc, parse).value <==>
        c in acc || exists i :: 0 <= i < |lines| && Yields(LineCalls(lines[i], parse), target, c))
  {
    if lines != [] {
      var rest := lines[1..];
      if LineOk(lines[0], parse) {
        var calls := LineCalls(lines[0], parse);
        var next := Collect(calls, target, acc);
        assert CollectLine(lines[0], target, acc, parse) == Ok(next);
        CollectMembers(calls, target, acc, c);
        CollectLinesMembers(rest, target, next, parse, c);
        assert CollectLines(lines, target, acc, parse) == CollectLines(rest, target, next, parse);
        SomeLineYields(lines, target, parse, c);
      }
    }
  }

  /** Some line yields `c` iff the first line does or some later one does. */
  lemma SomeLineYields(lines: seq<string>, target: string, parse: string -> Parsed, c: Call)
    requires lines != []
    ensures (exists i :: 0 <= i < |lines| && Yields(LineCalls(lines[i], parse), target, c)) <==>
      Yields(LineCalls(lines[0], parse), target, c) ||
      exists i :: 0 <= i < |lines[1..]| && Yields(LineCalls(lines[1..][i], parse), target, c)
  {
    if exists i :: 0 <= i < |lines| && Yields(LineCalls(lines[i], parse), target, c) {
      var i :| 0 <= i < |lines| && Yields(LineCalls(lines[i], parse), target, c);
      if i > 0 {
        assert lines[1..][i - 1] == lines[i];
      }
    }
    if exists i :: 0 <= i < |lines[1..]| && Yields(LineCalls(lines[1..][i], parse), target, c) {
      var i :| 0 <= i < |lines[1..]| && Yields(LineCalls(lines[1..][i], parse), target, c);
      assert lines[i + 1] == lines[1..][i];
    }
  }

  /** What parse-traces prints: the triples of the calls, anywhere in the
      file, whose `to` matches the lower-cased first argument. */
  lemma MainCollects(args: seq<string>, text: string, parse: string -> Parsed, c: Call)
    ensures Main(args, Some(text), parse).Ok? ==>
      (c in Main(args, Some(text), parse).value <==>
        exists i :: 0 <= i < |Lines(text)| && Yields(LineCalls(Lines(text)[i], parse), AsciiLower(args[1]), c))
  {
    if |args| >= 2 {
      CollectLinesMembers(Lines(text), AsciiLower(args[1]), {}, parse, c);
    }
  }


  /** When the outermost call of a trace is itself a call to the target, the
      collected set holds a triple whose type is the `toplevel` sentinel. */
  lemma TopLevelCollected(line: string, target: string, acc: set<Call>, parse: string -> Parsed)
    requires parse(line).Trace? && !parse(line).root.ty.Absent?
    requires CallsTarget(parse(line).root, target)
    ensures CollectLine(line, target, acc, parse).Ok?
    ensures exists c :: c in CollectLine(line, target, acc, parse).value && c.callType == "toplevel"
  {
    var marked := MarkTopLevel(parse(line).root).value;
    var calls := Flatten(marked);
    assert calls[0] == marked;
    CollectMembers(calls, target, acc, CallFromJson(marked));
  }

  /** The printed row: `type,selector,from`, the selector empty when absent. */
  function Row(c: Call): string {
    c.callType + "," + (if c.selector.Some? then c.selector.value else "") + "," + c.from
  }

  /** A row splits back into its three columns when none holds a comma. */
  lemma RowColumns(c: Call)
    requires ',' !in c.callType && ',' !in c.from
    requires c.selector.Some? ==> ',' !in c.selector.value
    ensures Split(Row(c), ',') == [c.callType, if c.selector.Some? then c.selector.value else "", c.from]
  {
    var cols := [c.callType, if c.selector.Some? then c.selector.value else "", c.from];
    assert Row(c) == Join(cols, ',') by {
      assert cols[1..][1..] == [c.from];
      assert Join(cols[1..][1..], ',') == c.from;
      assert Join(cols[1..], ',') == cols[1] + [','] + c.from;
      assert Join(cols, ',') == c.callType + [','] + (cols[1] + [','] + c.from);
    }
    SplitJoin(cols, ',');
  }

  /** Printing the set: one row per distinct triple, in whatever order the
      set is walked. */
  method EmitRows(calls: set<Call>) returns (rows: seq<string>)
    ensures |rows| == |calls|
    ensures forall c :: c in calls ==> Row(c) in rows
    ensures forall i :: 0 <= i < |rows| ==> exists c :: c in calls && rows[i] == Row(c)
  {
    rows := [];
    var left := calls;
    ghost var order: seq<Call> := [];
    while left != {}
      invariant left <= calls
      invariant |rows| == |order| && |order| + |left| == |calls|
      invariant forall i :: 0 <= i < |order| ==> order[i] in calls && rows[i] == Row(order[i])
      invariant forall c :: c in calls && c !in left ==> c in order
      decreases |left|
    {
      var c :| c in left;
      rows := rows + [Row(c)];
      order := order + [c];
      left := left - {c};
    }
    forall c | c in calls ensures Row(c) in rows {
      var j :| 0 <= j < |order| && order[j] == c;
      assert rows[j] == Row(c);
    }
  }
}

=== FILE: pretty_tsv.dfy ===
/** make-pretty-tsv: reads traces line by line, flattens each, keeps the calls
    touching a watched address, resolves their names and signature, and
    writes one tab-separated row per kept call. */
module PrettyTsv {

  import opened Wrappers
  import opened Text
  import opened CallTree
  import opened CacheLog
  import opened Resolvers

  /** Minimal extract of a flattened call (`UglyCall`). */
  datatype UglyCall = UglyCall(callType: string, selector: string, from: string, to: string)

  /** Enriched record (`PrettyCall`). */
  datatype PrettyCall = PrettyCall(
    callType: string, signature: string, from: string, to: string, fromName: string, toName: string)

  /** The first ten characters of the call data (`0x` and the four-byte
      selector) when there are that many, otherwise the empty string. */
  function SelectorOf(input: string): (r: string)
    ensures |input| >= 10 ==> |r| == 10 && IsPrefix(r, input)
    ensures |input| < 10 ==> r == ""
  {
    if |input| >= 10 then input[..10] else ""
  }

  /** `UglyCall::from_json`: the type must be a string (else the program
      panics); missing `input`, `from` and `to` read as the empty string. */
  function UglyFromJson(n: Node): (r: Result<UglyCall>)
    ensures r.Ok? <==> n.ty.Str?
    ensures r.Ok? ==> r.value == UglyCall(n.ty.s, SelectorOf(n.input.StrOrEmpty()), n.from.StrOrEmpty(), n.to.StrOrEmpty())
  {
    if !n.ty.Str? then Err("called `Option::unwrap()` on a `None` value: call type is not a string")
    else Ok(UglyCall(n.ty.s, SelectorOf(n.input.StrOrEmpty()), n.from.StrOrEmpty(), n.to.StrOrEmpty()))
  }

  /** `load_targets`: the whole file lower-cased, then the part of each line
      before the first comma. */
  function LoadTargets(text: string): (r: seq<string>)
    ensures |r| == |Lines(AsciiLower(text))|
    ensures forall i :: 0 <= i < |r| ==> r[i] == Split(Lines(AsciiLower(text))[i], ',')[0]
  {
    FirstFields(Lines(AsciiLower(text)))
  }

  function FirstFields(lines: seq<string>): (r: seq<string>)
    ensures |r| == |lines|
    ensures forall i :: 0 <= i < |lines| ==> r[i] == Split(lines[i], ',')[0]
  {
    if lines == [] then [] else [Split(lines[0], ',')[0]] + FirstFields(lines[1..])
  }

  /** The filter of the main loop: the call's `to` or `from` is watched. */
  predicate Watched(u: UglyCall, targets: seq<string>) {
    u.to in targets || u.from in targets
  }

  /** The six fields of a record in output order, and the printed line. */
  function Fields(p: PrettyCall): seq<string> {
    [p.callType, p.signature, p.from, p.to, p.fromName, p.toName]
  }

  function Line(p: PrettyCall): string {
    Join(Fields(p), '\t')
  }

  /** A printed row splits back into exactly the six fields, in order, when
      no field holds a tab. */
  lemma LineFields(p: PrettyCall)
    requires forall i :: 0 <= i < 6 ==> '\t' !in Fields(p)[i]
    ensures Split(Line(p), '\t') == Fields(p)
  {
    SplitJoin(Fields(p), '\t');
  }

  // ---------------------------------------------------------------------
  // The enrichment pipeline
  // ---------------------------------------------------------------------

  /** Both in-memory caches. */
  datatype State = State(names: Cache, selectors: Cache)

  /** Everything outside the program: the two services, the JSON parser and
      the proxy-chain fuel of the model. */
  datatype Env = Env(signatures: SignatureDb, contracts: ContractService, parse: string -> Parsed, fuel: nat)

  /** The records printed so far, the caches, and the failure that stopped
      the run, if any. Printed rows stay printed when a later step fails. */
  datatype Run = Run(out: seq<PrettyCall>, state: State, error: Option<string>)

  datatype Enriched = Enriched(call: PrettyCall, state: State)

  /** `PrettyCall::from_ugly_call`: the from-name, then the to-name, then the
      signature, each through its cache. */
  function FromUgly(u: UglyCall, st: State, env: Env): (r: Result<Enriched>)
    ensures r.Ok? ==> r.value.call.callType == u.callType && r.value.call.from == u.from && r.value.call.to == u.to
    ensures r.Ok? ==> st.names.Keys <= r.value.state.names.Keys && st.selectors.Keys <= r.value.state.selectors.Keys
  {
    var fromName :- FetchContractName(u.from, st.names, env.contracts, env.fuel);
    var toName :- FetchContractName(u.to, fromName.cache, env.contracts, env.fuel);
    var signature :- FetchSignature(u.selector, st.selectors, env.signatures);
    Ok(Enriched(
      PrettyCall(u.callType, signature.value, u.from, u.to, fromName.value, toName.value),
      State(toName.cache, signature.cache)))
  }

  /** The inner loop over one trace's flattened calls. */
  function ProcessCalls(calls: seq<Node>, targets: seq<string>, st: State, env: Env): (r: Run)
  {
    if calls == [] then Run([], st, None)
    else match UglyFromJson(calls[0])
      case Err(e) => Run([], st, Some(e))
      case Ok(u) =>
        if !Watched(u, targets) then ProcessCalls(calls[1..], targets, st, env)
        else match FromUgly(u, st, env)
          case Err(e) => Run([], st, Some(e))
          case Ok(en) =>
            var rest := ProcessCalls(calls[1..], targets, en.state, env);
            Run([en.call] + rest.out, rest.state, rest.error)
  }

  /** One trace line: parse, mark the root `toplevel`, flatten, process. */
  function ProcessLine(line: string, targets: seq<string>, st: State, env: Env): Run {
    match env.parse(line)
    case Malformed => Run([], st, Some("Failed to parse JSON input"))
    case NoResult => Run([], st, Some("no result in response"))
    case Trace(root) =>
      match MarkTopLevel(root)
      case Err(e) => Run([], st, Some(e))
      case Ok(marked) => ProcessCalls(Flatten(marked), targets, st, env)
  }

  predicate IsDone(line: string) {
    Trim(line) == "DONE"
  }

  /** The main loop: stop at end of input or at a line that is `DONE` once
      trimmed; otherwise process the line and carry on unless it failed. */
  function ProcessLines(lines: seq<string>, targets: seq<string>, st: State, env: Env): Run
  {
    if lines == [] || IsDone(lines[0]) then Run([], st, None)
    else
      var r := ProcessLine(lines[0], targets, st, env);
      if r.error.Some? then r
      else
        var rest := ProcessLines(lines[1..], targets, r.state, env);
        Run(r.out + rest.out, rest.state, rest.error)
  }

  /** The files the program reads: the target list and the two cache logs
      (`None` for a file that does not exist). */
  datatype Files = Files(targets: Option<string>, selectorCache: Option<string>, nameCache: Option<string>)

  /** `main` of make-pretty-tsv: the targets file, then the selector cache,
      then the name cache are read before any input line; the first of these
      to fail ends the program with no row printed. A cache file that does
      not exist starts its cache empty. */
  function Main(files: Files, input: seq<string>, env: Env): (r: Run)
    ensures files.targets.None? ==> r.out == [] && r.error.Some?
    ensures files.targets.Some? && Load(files.selectorCache).Err? ==>
      r.out == [] && r.error == Some(Load(files.selectorCache).msg)
    ensures files.targets.Some? && Load(files.selectorCache).Ok? && Load(files.nameCache).Err? ==>
      r.out == [] && r.error == Some(Load(files.nameCache).msg)
    ensures files.targets.Some? && files.selectorCache.None? && files.nameCache.None? ==>
      r == ProcessLines(input, LoadTargets(files.targets.value), State(map[], map[]), env)
    ensures files.targets.Some? && Load(files.selectorCache).Ok? && Load(files.nameCache).Ok? ==>
      r == ProcessLines(input, LoadTargets(files.targets.value),
                        State(Load(files.nameCache).value, Load(files.selectorCache).value), env)
  {
    var empty := State(map[], map[]);
    match files.targets
    case None => Run([], empty, Some("Failed to read targets file"))
    case Some(text) =>
      var targets := LoadTargets(text);
      match Load(files.selectorCache)
      case Err(e) => Run([], empty, Some(e))
      case Ok(selectors) =>
        match Load(files.nameCache)
        case Err(e) => Run([], empty, Some(e))
        case Ok(names) => ProcessLines(input, targets, State(names, selectors), env)
  }

  // ---------------------------------------------------------------------
  // Properties
  // ---------------------------------------------------------------------

  /** Nothing after a `DONE` line is read: the run over the whole input equals
      the run over the lines before it. */
  lemma {:induction false} StopsAtDone(lines: seq<string>, i: nat, targets: seq<string>, st: State, env: Env)
    requires i < |lines| && IsDone(lines[i])
    ensures ProcessLines(lines, targets, st, env) == ProcessLines(lines[..i], targets, st, env)
  {
    if i == 0 {
      assert lines[..0] == [];
    } else {
      var pre := lines[..i];
      assert pre[0] == lines[0];
      assert pre[1..] == lines[1..][..i - 1];
      var r := ProcessLine(lines[0], targets, st, env);
      StopsAtDone(lines[1..], i - 1, targets, r.state, env);
      SameHead(lines, pre, targets, st, env);
    }
  }

  /** Two inputs with the same first line whose tails run alike run alike. */
  lemma SameHead(l1: seq<string>, l2: seq<string>, targets: seq<string>, st: State, env: Env)
    requires l1 != [] && l2 != [] && l1[0] == l2[0]
    requires ProcessLines(l1[1..], targets, ProcessLine(l1[0], targets, st, env).state, env)
          == ProcessLines(l2[1..], targets, ProcessLine(l1[0], targets, st, env).state, env)
    ensures ProcessLines(l1, targets, st, env) == ProcessLines(l2, targets, st, env)
  {
  }

  /** Streaming: rows printed for a prefix of the input are never taken back
      by whatever follows it. */
  lemma {:induction false} OutputIsPrefix(a: seq<string>, b: seq<string>, targets: seq<string>, st: State, env: Env)
    ensures IsPrefix(ProcessLines(a, targets, st, env).out, ProcessLines(a + b, targets, st, env).out)
  {
    if a != [] {
      assert (a + b)[0] == a[0];
      assert (a + b)[1..] == a[1..] + b;
      if !IsDone(a[0]) {
        var r := ProcessLine(a[0], targets, st, env);
        if r.error.None? {
          OutputIsPrefix(a[1..], b, targets, r.state, env);
          ProcessLinesCons(a, targets, st, env);
          ProcessLinesCons(a + b, targets, st, env);
          PrefixAfter(r.out, ProcessLines(a[1..], targets, r.state, env).out, ProcessLines(a[1..] + b, targets, r.state, env).out);
        }
      }
    }
  }

  /** One successful line: its rows, then the rows of the rest. */
  lemma ProcessLinesCons(l: seq<string>, targets: seq<string>, st: State, env: Env)
    requires l != [] && !IsDone(l[0])
    requires ProcessLine(l[0], targets, st, env).error.None?
    ensures ProcessLines(l, targets, st, env).out
         == ProcessLine(l[0], targets, st, env).out
          + ProcessLines(l[1..], targets, ProcessLine(l[0], targets, st, env).state, env).out
  {
  }

  lemma PrefixAfter<T>(p: seq<T>, x: seq<T>, y: seq<T>)
    requires IsPrefix(x, y)
    ensures IsPrefix(p + x, p + y)
  {
    assert (p + y)[..|p + x|] == p + y[..|x|];
  }

  /** The calls of a trace that a run keeps, in traversal order. */
  function KeptCalls(calls: seq<Node>, targets: seq<string>): (r: seq<UglyCall>)
    requires forall i :: 0 <= i < |calls| ==> calls[i].ty.Str?
    ensures |r| <= |calls|
  {
    if calls == [] then []
    else
      var u := UglyFromJson(calls[0]).value;
      if Watched(u, targets) then [u] + KeptCalls(calls[1..], targets) else KeptCalls(calls[1..], targets)
  }

  /** The true name column for an address. */
  ghost predicate ContractNameOf(lookup: string -> Option<ContractInfo>, address: string, name: string) {
    if address == "" then name == "" else NameOf(lookup, address, name)
  }

  ghost predicate StateTrue(env: Env, st: State) {
    Consistent(env.contracts.lookup, st.names) && SignaturesTrue(env.signatures, st.selectors)
  }

  /** Enriching one call from true caches gives the true columns. */
  lemma FromUglySound(u: UglyCall, st: State, env: Env)
    requires StateTrue(env, st)
    requires FromUgly(u, st, env).Ok?
    ensures var en := FromUgly(u, st, env).value;
      && StateTrue(env, en.state)
      && SignatureOf(env.signatures, u.selector, en.call.signature)
      && ContractNameOf(env.contracts.lookup, u.from, en.call.fromName)
      && ContractNameOf(env.contracts.lookup, u.to, en.call.toName)
  {
    var fromName := FetchContractName(u.from, st.names, env.contracts, env.fuel).value;
    FetchContractNameSound(u.from, st.names, env.contracts, env.fuel);
    FetchContractNameSound(u.to, fromName.cache, env.contracts, env.fuel);
    FetchSignatureSound(u.selector, st.selectors, env.signatures);
  }

  /** One enriched row as the kept call and true caches determine it. */
  ghost predicate TrueRow(env: Env, u: UglyCall, p: PrettyCall) {
    && p.callType == u.callType && p.from == u.from && p.to == u.to
    && SignatureOf(env.signatures, u.selector, p.signature)
    && ContractNameOf(env.contracts.lookup, u.from, p.fromName)
    && ContractNameOf(env.contracts.lookup, u.to, p.toName)
  }

  /** The row carries the call's type, `from` and `to`. */
  predicate RowOf(u: UglyCall, p: PrettyCall) {
    p.callType == u.callType && p.from == u.from && p.to == u.to
  }

  /** Whatever the caches hold, a trace processed without failure prints
      exactly one row per call whose `to` or `from` is watched, in traversal
      order, carrying that call's type, `from` and `to`. */
  lemma {:induction false} ProcessCallsKept(calls: seq<Node>, targets: seq<string>, st: State, env: Env)
    ensures var r := ProcessCalls(calls, targets, st, env);
      r.error.None? ==>
        && (forall i :: 0 <= i < |calls| ==> calls[i].ty.Str?)
        && |r.out| == |KeptCalls(calls, targets)|
        && forall i :: 0 <= i < |r.out| ==> RowOf(KeptCalls(calls, targets)[i], r.out[i])
  {
    if calls != [] && UglyFromJson(calls[0]).Ok? {
      var u := UglyFromJson(calls[0]).value;
      if !Watched(u, targets) {
        ProcessCallsKept(calls[1..], targets, st, env);
        if ProcessCalls(calls, targets, st, env).error.None? {
          AllStrCons(calls);
        }
      } else if FromUgly(u, st, env).Ok? {
        var en := FromUgly(u, st, env).value;
        ProcessCallsKept(calls[1..], targets, en.state, env);
        var rest := ProcessCalls(calls[1..], targets, en.state, env);
        if rest.error.None? {
          AllStrCons(calls);
          RowsOfCons(u, en.call, KeptCalls(calls[1..], targets), rest.out);
        }
      }
    }
  }

  lemma RowsOfCons(u: UglyCall, p: PrettyCall, kept: seq<UglyCall>, out: seq<PrettyCall>)
    requires RowOf(u, p)
    requires |out| == |kept| && forall i :: 0 <= i < |out| ==> RowOf(kept[i], out[i])
    ensures forall i :: 0 <= i < |out| + 1 ==> RowOf(([u] + kept)[i], ([p] + out)[i])
  {
    forall i | 0 <= i < |out| + 1 ensures RowOf(([u] + kept)[i], ([p] + out)[i]) {
      if i > 0 {
        assert ([u] + kept)[i] == kept[i - 1];
        assert ([p] + out)[i] == out[i - 1];
      }
    }
  }

  /** While the caches hold true answers, the signature and name columns of
      those rows are the true ones, and the caches stay true. */
  lemma {:induction false} ProcessCallsRows(calls: seq<Node>, targets: seq<string>, st: State, env: Env)
    requires StateTrue(env, st)
    ensures StateTrue(env, ProcessCalls(calls, targets, st, env).state)
    ensures var r := ProcessCalls(calls, targets, st, env);
      r.error.None? ==>
        && (forall i :: 0 <= i < |calls| ==> calls[i].ty.Str?)
        && |r.out| == |KeptCalls(calls, targets)|
        && forall i :: 0 <= i < |r.out| ==> TrueRow(env, KeptCalls(calls, targets)[i], r.out[i])
  {
    if calls != [] && UglyFromJson(calls[0]).Ok? {
      var u := UglyFromJson(calls[0]).value;
      if !Watched(u, targets) {
        ProcessCallsRows(calls[1..], targets, st, env);
        if ProcessCalls(calls, targets, st, env).error.None? {
          AllStrCons(calls);
        }
      } else if FromUgly(u, st, env).Ok? {
        var en := FromUgly(u, st, env).value;
        FromUglySound(u, st, env);
        ProcessCallsRows(calls[1..], targets, en.state, env);
        var rest := ProcessCalls(calls[1..], targets, en.state, env);
        if rest.error.None? {
          AllStrCons(calls);
          TrueRowsCons(env, u, en.call, KeptCalls(calls[1..], targets), rest.out);
        }
      }
    }
  }

  /** Every call has a string type once the first and all later ones do. */
  lemma AllStrCons(calls: seq<Node>)
    requires calls != [] && calls[0].ty.Str?
    requires forall i :: 0 <= i < |calls| - 1 ==> calls[1..][i].ty.Str?
    ensures forall i :: 0 <= i < |calls| ==> calls[i].ty.Str?
  {
    forall i | 1 <= i < |calls| ensures calls[i].ty.Str? {
      assert calls[1..][i - 1] == calls[i];
    }
  }

  /** A true row in front of true rows. */
  lemma TrueRowsCons(env: Env, u: UglyCall, p: PrettyCall, kept: seq<UglyCall>, out: seq<PrettyCall>)
    requires TrueRow(env, u, p)
    requires |out| == |kept| && forall i :: 0 <= i < |out| ==> TrueRow(env, kept[i], out[i])
    ensures forall i :: 0 <= i < |out| + 1 ==> TrueRow(env, ([u] + kept)[i], ([p] + out)[i])
  {
    forall i | 0 <= i < |out| + 1 ensures TrueRow(env, ([u] + kept)[i], ([p] + out)[i]) {
      if i > 0 {
        assert ([u] + kept)[i] == kept[i - 1];
        assert ([p] + out)[i] == out[i - 1];
      }
    }
  }

}

=== FILE: resolvers.dfy ===
/** The cache-backed resolvers of make-pretty-tsv: selector -> function
    signature (`fetch_signature`) and address -> contract name
    (`fetch_contract_name`). The web services are oracle functions; every
    failure of a request, of its JSON or of a field it must carry is `None`. */
module Resolvers {

  import opened Wrappers
  import opened CacheLog

  /** Outcome of a resolution: the answer, the in-memory cache afterwards, and
      the entries appended to the cache file, in order. Every lookup that
      reached the service appended exactly one entry, so `appended == []`
      means no lookup was made. */
  datatype Resolved = Resolved(value: string, cache: Cache, appended: seq<Entry>)

  /** The signature database: the candidate names it lists for a selector. */
  type SignatureDb = string -> Option<seq<string>>

  /** What the source-verification service reports for an address. */
  datatype ContractInfo = ContractInfo(name: string, implementation: string)

  /** The source-verification service, and the API key from the environment. */
  datatype ContractService = ContractService(lookup: string -> Option<ContractInfo>, apiKey: Option<string>)

  /** Resolution only ever adds to the cache: old entries keep their values,
      and the new cache is the old one with the appended entries replayed. */
  predicate Extends(cache: Cache, r: Resolved) {
    && r.cache == Apply(cache, r.appended)
    && (forall k :: k in cache ==> k in r.cache && r.cache[k] == cache[k])
  }

  // ---------------------------------------------------------------------
  // fetch_signature
  // ---------------------------------------------------------------------

  /** `fetch_signature`: empty selector -> `""`; cached -> the cached
      signature; otherwise the first candidate of the database, which is
      cached. A missing or empty candidate list is fatal. */
  function FetchSignature(selector: string, cache: Cache, db: SignatureDb): (r: Result<Resolved>)
    ensures selector == "" ==> r == Ok(Resolved("", cache, []))
    ensures selector != "" && selector in cache ==> r == Ok(Resolved(cache[selector], cache, []))
    ensures selector != "" && selector !in cache ==>
      (r.Ok? <==> db(selector).Some? && db(selector).value != [])
    ensures r.Ok? && selector != "" && selector !in cache ==>
      && r.value.value == db(selector).value[0]
      && r.value.appended == [Entry(selector, r.value.value)]
    ensures r.Ok? ==> Extends(cache, r.value)
    ensures r.Ok? && selector != "" ==> selector in r.value.cache && r.value.cache[selector] == r.value.value
  {
    if selector == "" then Ok(Resolved("", cache, []))
    else if selector in cache then Ok(Resolved(cache[selector], cache, []))
    else
      var candidates :- Need(db(selector), "Failed to fetch signature");
      if candidates == [] then Err("index out of bounds: no signature for selector")
      else
        var signature := candidates[0];
        var e := Entry(selector, signature);
        assert Apply(cache, [e]) == cache[selector := signature] by {
          assert [e][1..] == [];
        }
        Ok(Resolved(signature, cache[selector := signature], [e]))
  }

  /** Resolving a selector a second time answers the same, from the cache,
      without a lookup (so each selector is looked up at most once per run). */
  lemma FetchSignatureIdempotent(selector: string, cache: Cache, db: SignatureDb, db2: SignatureDb)
    requires FetchSignature(selector, cache, db).Ok?
    ensures var r := FetchSignature(selector, cache, db).value;
      FetchSignature(selector, r.cache, db2) == Ok(Resolved(r.value, r.cache, []))
  {
  }

  /** The selector cache holds first candidates of the database. */
  ghost predicate SignaturesTrue(db: SignatureDb, cache: Cache) {
    forall k :: k in cache && k != "" ==> db(k).Some? && db(k).value != [] && cache[k] == db(k).value[0]
  }

  /** The true signature column for a selector. */
  ghost predicate SignatureOf(db: SignatureDb, selector: string, signature: string) {
    if selector == "" then signature == ""
    else db(selector).Some? && db(selector).value != [] && signature == db(selector).value[0]
  }

  /** A signature resolved against a cache of true answers is the true one,
      and the cache stays true. */
  lemma FetchSignatureSound(selector: string, cache: Cache, db: SignatureDb)
    requires SignaturesTrue(db, cache)
    requires FetchSignature(selector, cache, db).Ok?
    ensures var r := FetchSignature(selector, cache, db).value;
      SignaturesTrue(db, r.cache) && SignatureOf(db, selector, r.value)
  {
  }

  // ---------------------------------------------------------------------
  // fetch_contract_name
  // ---------------------------------------------------------------------

  /** The display name of a proxy chain: `"A -> B -> C"`. */
  function Compose(names: seq<string>): string
    requires names != []
  {
    if |names| == 1 then names[0] else names[0] + " -> " + Compose(names[1..])
  }

  /** `fetch_contract_name`. The source recurses along `Implementation`
      links without bound; here each lookup spends one unit of `fuel`, and a
      lookup with no fuel left fails, so within its fuel the function follows
      the source step for step. */
  function FetchContractName(address: string, cache: Cache, svc: ContractService, fuel: nat): (r: Result<Resolved>)
    decreases fuel
    ensures address == "" ==> r == Ok(Resolved("", cache, []))
    ensures address != "" && address in cache ==> r == Ok(Resolved(cache[address], cache, []))
    ensures address != "" && address !in cache && r.Ok? ==>
      && fuel > 0 && svc.apiKey.Some? && svc.lookup(address).Some?
      && |r.value.appended| > 0
      && r.value.appended[|r.value.appended| - 1] == Entry(address, r.value.value)
    ensures r.Ok? ==> Extends(cache, r.value)
    ensures r.Ok? && address != "" ==> address in r.value.cache && r.value.cache[address] == r.value.value
  {
    if address == "" then Ok(Resolved("", cache, []))
    else if address in cache then Ok(Resolved(cache[address], cache, []))
    else if fuel == 0 then Err("proxy chain too long or cyclic")
    else
      var _ :- Need(svc.apiKey, "Missing ETHERSCAN_API_KEY");
      var info :- Need(svc.lookup(address), "Failed to fetch contract name");
      if info.implementation == "" then
        var e := Entry(address, info.name);
        assert Apply(cache, [e]) == cache[address := info.name] by {
          assert [e][1..] == [];
        }
        Ok(Resolved(info.name, cache[address := info.name], [e]))
      else
        var inner :- FetchContractName(info.implementation, cache, svc, fuel - 1);
        var name := info.name + " -> " + inner.value;
        var e := Entry(address, name);
        ApplyAppend(cache, inner.appended, e);
        Ok(Resolved(name, inner.cache[address := name], inner.appended + [e]))
  }

  /** The miss path of `fetch_contract_name`: the declared name, or for a
      proxy the declared name, `" -> "` and the implementation's resolved
      name, stored under the original address, with the implementation's own
      entry present as well. */
  lemma FetchContractNameMiss(address: string, cache: Cache, svc: ContractService, fuel: nat)
    requires address != "" && address !in cache
    requires FetchContractName(address, cache, svc, fuel).Ok?
    ensures var r := FetchContractName(address, cache, svc, fuel).value;
      var info := svc.lookup(address).value;
      && (info.implementation == "" ==> r.value == info.name && r.appended == [Entry(address, info.name)])
      && (info.implementation != "" ==>
            && FetchContractName(info.implementation, cache, svc, fuel - 1).Ok?
            && var inner := FetchContractName(info.implementation, cache, svc, fuel - 1).value;
            && r.value == info.name + " -> " + inner.value
            && r.appended == inner.appended + [Entry(address, r.value)]
            && info.implementation in r.cache)
  {
  }

  /** Resolving an address a second time answers the same from the cache
      with no lookup, whatever the fuel. */
  lemma FetchContractNameIdempotent(address: string, cache: Cache, svc: ContractService, fuel: nat, fuel2: nat)
    requires FetchContractName(address, cache, svc, fuel).Ok?
    ensures var r := FetchContractName(address, cache, svc, fuel).value;
      FetchContractName(address, r.cache, svc, fuel2) == Ok(Resolved(r.value, r.cache, []))
  {
  }

  // Reference behaviour without a cache ----------------------------------

  /** The declared names met when following `Implementation` links from
      `address`, using at most `fuel` lookups; `None` when a lookup fails or
      the fuel runs out. */
  function ProxyChain(lookup: string -> Option<ContractInfo>, address: string, fuel: nat): (r: Option<seq<string>>)
    decreases fuel
    ensures r.Some? ==> r.value != [] && |r.value| <= fuel
  {
    if fuel == 0 then None
    else match lookup(address)
      case None => None
      case Some(info) =>
        if info.implementation == "" then Some([info.name])
        else match ProxyChain(lookup, info.implementation, fuel - 1)
          case None => None
          case Some(rest) => Some([info.name] + rest)
  }

  /** More fuel never changes a chain that was already complete. */
  lemma {:induction false} ProxyChainMonotone(lookup: string -> Option<ContractInfo>, address: string, f1: nat, f2: nat)
    requires ProxyChain(lookup, address, f1).Some?
    requires f1 <= f2
    ensures ProxyChain(lookup, address, f2) == ProxyChain(lookup, address, f1)
    decreases f1
  {
    var info := lookup(address).value;
    if info.implementation != "" {
      ProxyChainMonotone(lookup, info.implementation, f1 - 1, f2 - 1);
    }
  }

  /** `value` is the true composed name of `address`. */
  ghost predicate NameOf(lookup: string -> Option<ContractInfo>, address: string, value: string) {
    exists f: nat :: ProxyChain(lookup, address, f).Some? && value == Compose(ProxyChain(lookup, address, f).value)
  }

  /** Every non-empty key of the cache maps to its address's true composed name. */
  ghost predicate Consistent(lookup: string -> Option<ContractInfo>, cache: Cache) {
    forall k :: k in cache && k != "" ==> NameOf(lookup, k, cache[k])
  }

  /** A cache that only holds true names keeps only true names, and what the
      resolver returns for a non-empty address is that address's true name. */
  lemma {:induction false} FetchContractNameSound(address: string, cache: Cache, svc: ContractService, fuel: nat)
    requires Consistent(svc.lookup, cache)
    requires FetchContractName(address, cache, svc, fuel).Ok?
    ensures var r := FetchContractName(address, cache, svc, fuel).value;
      && Consistent(svc.lookup, r.cache)
      && (address != "" ==> NameOf(svc.lookup, address, r.value))
    decreases fuel
  {
    var r := FetchContractName(address, cache, svc, fuel).value;
    if address != "" && address !in cache {
      var info := svc.lookup(address).value;
      if info.implementation == "" {
        assert ProxyChain(svc.lookup, address, 1) == Some([info.name]);
        assert NameOf(svc.lookup, address, r.value);
      } else {
        var inner := FetchContractName(info.implementation, cache, svc, fuel - 1).value;
        FetchContractNameSound(info.implementation, cache, svc, fuel - 1);
        var f: nat :| ProxyChain(svc.lookup, info.implementation, f).Some?
          && inner.value == Compose(ProxyChain(svc.lookup, info.implementation, f).value);
        var rest := ProxyChain(svc.lookup, info.implementation, f).value;
        assert ProxyChain(svc.lookup, address, f + 1) == Some([info.name] + rest);
        assert ([info.name] + rest)[1..] == rest;
        assert NameOf(svc.lookup, address, r.value) by {
          assert Compose(ProxyChain(svc.lookup, address, f + 1).value) == r.value;
        }
      }
    }
  }

  /** Conversely, with the API key available and a cache of true names, enough
      fuel for the address's chain makes the resolver succeed with that chain's
      composed name. */
  lemma {:induction false} FetchContractNameComplete(address: string, cache: Cache, svc: ContractService, f: nat, fuel: nat)
    requires Consistent(svc.lookup, cache)
    requires svc.apiKey.Some?
    requires address != ""
    requires ProxyChain(svc.lookup, address, f).Some?
    requires f <= fuel
    ensures FetchContractName(address, cache, svc, fuel).Ok?
    ensures FetchContractName(address, cache, svc, fuel).value.value == Compose(ProxyChain(svc.lookup, address, f).value)
    decreases f
  {
    var chain := ProxyChain(svc.lookup, address, f).value;
    if address in cache {
      var g: nat :| ProxyChain(svc.lookup, address, g).Some? && cache[address] == Compose(ProxyChain(svc.lookup, address, g).value);
      if f <= g {
        ProxyChainMonotone(svc.lookup, address, f, g);
      } else {
        ProxyChainMonotone(svc.lookup, address, g, f);
      }
    } else {
      var info := svc.lookup(address).value;
      if info.implementation != "" {
        FetchContractNameComplete(info.implementation, cache, svc, f - 1, fuel - 1);
        assert chain[1..] == ProxyChain(svc.lookup, info.implementation, f - 1).value;
      }
    }
  }
}

=== FILE: sort.dfy ===
/** A stable sort into descending lexicographic order of a string key, the
    behaviour of `sort_by(|a, b| key(b).cmp(key(a)))` (Rust's `sort_by` is
    stable). */
module StableSort {

  import opened Text

  /** Keys never increase along `s`. */
  ghost predicate SortedDesc<T>(s: seq<T>, key: T -> string) {
    forall i, j :: 0 <= i < j < |s| ==> StrLe(key(s[j]), key(s[i]))
  }

  /** The elements of `s` whose key is `k`, in their order in `s`. */
  function WithKey<T>(s: seq<T>, key: T -> string, k: string): (r: seq<T>)
    ensures |r| <= |s|
  {
    if s == [] then []
    else if key(s[0]) == k then [s[0]] + WithKey(s[1..], key, k)
    else WithKey(s[1..], key, k)
  }

  /** Puts `x` in front of the first element whose key is not greater. */
  function InsertDesc<T>(x: T, s: seq<T>, key: T -> string): seq<T> {
    if s == [] || StrLe(key(s[0]), key(x)) then [x] + s
    else [s[0]] + InsertDesc(x, s[1..], key)
  }

  /** Insertion sort, inserting the first element into the sorted rest. */
  function SortDesc<T>(s: seq<T>, key: T -> string): seq<T> {
    if s == [] then [] else InsertDesc(s[0], SortDesc(s[1..], key), key)
  }

  /** Sorting keeps the number of elements. */
  lemma {:induction false} SortDescLength<T>(s: seq<T>, key: T -> string)
    ensures |SortDesc(s, key)| == |s|
  {
    if s != [] {
      SortDescLength(s[1..], key);
      InsertDescLength(s[0], SortDesc(s[1..], key), key);
    }
  }

  lemma {:induction false} InsertDescLength<T>(x: T, s: seq<T>, key: T -> string)
    ensures |InsertDesc(x, s, key)| == |s| + 1
  {
    if s != [] && !StrLe(key(s[0]), key(x)) {
      InsertDescLength(x, s[1..], key);
    }
  }

  lemma {:induction false} StrLeRefl(a: string)
    ensures StrLe(a, a)
  {
    if a != [] {
      StrLeRefl(a[1..]);
    }
  }

  lemma {:induction false} InsertDescPerm<T>(x: T, s: seq<T>, key: T -> string)
    ensures multiset(InsertDesc(x, s, key)) == multiset(s) + multiset{x}
  {
    if s != [] && !StrLe(key(s[0]), key(x)) {
      InsertDescPerm(x, s[1..], key);
      assert s == [s[0]] + s[1..];
    }
  }

  lemma {:induction false} InsertDescSorted<T>(x: T, s: seq<T>, key: T -> string)
    requires SortedDesc(s, key)
    ensures SortedDesc(InsertDesc(x, s, key), key)
  {
    var r := InsertDesc(x, s, key);
    if s == [] {
    } else if StrLe(key(s[0]), key(x)) {
      forall i, j | 0 <= i < j < |r| ensures StrLe(key(r[j]), key(r[i])) {
        if i == 0 {
          if j > 1 {
            StrLeTrans(key(s[j - 1]), key(s[0]), key(x));
          }
        }
      }
    } else {
      StrLeTotal(key(s[0]), key(x));
      var t := InsertDesc(x, s[1..], key);
      InsertDescSorted(x, s[1..], key);
      InsertDescPerm(x, s[1..], key);
      forall j | 0 <= j < |t| ensures StrLe(key(t[j]), key(s[0])) {
        assert t[j] in multiset(t);
        if t[j] != x {
          assert t[j] in multiset(s[1..]);
          var m :| 0 <= m < |s[1..]| && s[1..][m] == t[j];
          assert s[m + 1] == t[j];
        }
      }
      assert r == [s[0]] + t;
    }
  }

  /** Inserting `x` places it ahead of every element with its key. */
  lemma {:induction false} InsertDescWithKey<T>(x: T, s: seq<T>, key: T -> string, k: string)
    ensures WithKey(InsertDesc(x, s, key), key, k) ==
      (if key(x) == k then [x] else []) + WithKey(s, key, k)
  {
    if s == [] || StrLe(key(s[0]), key(x)) {
      assert ([x] + s)[1..] == s;
    } else {
      StrLeRefl(key(x));
      InsertDescWithKey(x, s[1..], key, k);
      assert ([s[0]] + InsertDesc(x, s[1..], key))[1..] == InsertDesc(x, s[1..], key);
      if key(x) == k {
        assert key(s[0]) != k;
      }
    }
  }

  /** The sort's three promises: descending keys, a permutation of the input,
      and stability (elements with equal keys keep their input order). */
  lemma {:induction false} SortDescCorrect<T>(s: seq<T>, key: T -> string)
    ensures SortedDesc(SortDesc(s, key), key)
    ensures multiset(SortDesc(s, key)) == multiset(s)
    ensures forall k :: WithKey(SortDesc(s, key), key, k) == WithKey(s, key, k)
  {
    if s != [] {
      SortDescCorrect(s[1..], key);
      InsertDescSorted(s[0], SortDesc(s[1..], key), key);
      InsertDescPerm(s[0], SortDesc(s[1..], key), key);
      assert s == [s[0]] + s[1..];
      forall k ensures WithKey(SortDesc(s, key), key, k) == WithKey(s, key, k) {
        InsertDescWithKey(s[0], SortDesc(s[1..], key), key, k);
      }
    }
  }
}

=== FILE: spreadsheet.dfy ===
/** create-spreadsheet: one sheet per watched address, listing the enriched
    records that call it (inbound) and that it makes (outbound), sorted and
    highlighted by their relation to the watch list. */
module Spreadsheet {

  import opened Wrappers
  import opened Text
  import opened StableSort
  import opened PrettyTsv

  /** A watched address and its label (the sheet name). */
  datatype Target = Target(address: string, name: string)

  /** One line of the target file: the address (lower-cased) before the first
      comma and the label after it; a line without a comma makes the program
      panic. */
  function ParseTarget(line: string): (r: Result<Target>)
    ensures r.Ok? <==> |Split(line, ',')| >= 2
    ensures r.Ok? ==> r.value == Target(AsciiLower(Split(line, ',')[0]), Split(line, ',')[1])
  {
    var arr := Split(line, ',');
    if |arr| < 2 then Err("index out of bounds: target line without a label")
    else Ok(Target(AsciiLower(arr[0]), arr[1]))
  }

  function ParseTargets(lines: seq<string>): (r: Result<seq<Target>>)
    ensures r.Ok? <==> forall i :: 0 <= i < |lines| ==> ParseTarget(lines[i]).Ok?
    ensures r.Ok? ==> |r.value| == |lines|
    ensures r.Ok? ==> forall i :: 0 <= i < |lines| ==> ParseTarget(lines[i]) == Ok(r.value[i])
  {
    if lines == [] then Ok([])
    else
      var t :- ParseTarget(lines[0]);
      var rest :- ParseTargets(lines[1..]);
      Ok([t] + rest)
  }

  /** `load_targets`. */
  function LoadTargets(file: Option<string>): Result<seq<Target>> {
    match file
    case None => Err("Failed to read targets file")
    case Some(text) => ParseTargets(Lines(text))
  }

  /** make-pretty-tsv and create-spreadsheet read the same target file alike:
      when every line has a label, the first reads exactly the addresses the
      second reads (lower-casing the whole file first, or each address after
      splitting, gives the same result). */
  lemma SameWatchList(text: string)
    requires LoadTargets(Some(text)).Ok?
    ensures var ts := LoadTargets(Some(text)).value;
      && |PrettyTsv.LoadTargets(text)| == |ts|
      && forall i :: 0 <= i < |ts| ==> PrettyTsv.LoadTargets(text)[i] == ts[i].address
  {
    LinesAsciiLower(text);
    var ls := Lines(text);
    forall i | 0 <= i < |ls|
      ensures Split(AsciiLower(ls[i]), ',')[0] == AsciiLower(Split(ls[i], ',')[0])
    {
      SplitAsciiLower(ls[i], ',');
    }
  }

  /** One line of the data file: the six tab-separated fields in record order;
      fewer than six fields make the program panic, further ones are ignored. */
  function ParseRecord(line: string): (r: Result<PrettyCall>)
    ensures r.Ok? <==> |Split(line, '\t')| >= 6
    ensures r.Ok? ==> Fields(r.value) == Split(line, '\t')[..6]
  {
    var arr := Split(line, '\t');
    if |arr| < 6 then Err("index out of bounds: data line with fewer than six fields")
    else Ok(PrettyCall(arr[0], arr[1], arr[2], arr[3], arr[4], arr[5]))
  }

  /** A row written by make-pretty-tsv reads back as the same record. */
  lemma ParseRecordLine(p: PrettyCall)
    requires forall i :: 0 <= i < 6 ==> '\t' !in Fields(p)[i]
    ensures ParseRecord(Line(p)) == Ok(p)
  {
    LineFields(p);
    assert Split(Line(p), '\t')[..6] == Fields(p);
  }

  /** Parse every line, then drop the `toplevel` records. */
  function ParseData(lines: seq<string>): (r: Result<seq<PrettyCall>>)
    ensures r.Ok? <==> forall i :: 0 <= i < |lines| ==> ParseRecord(lines[i]).Ok?
    ensures r.Ok? ==> forall p :: p in r.value ==> p.callType != "toplevel"
    ensures r.Ok? ==> forall i :: 0 <= i < |lines| ==>
      (ParseRecord(lines[i]).value in r.value <== ParseRecord(lines[i]).value.callType != "toplevel")
  {
    if lines == [] then Ok([])
    else
      var p :- ParseRecord(lines[0]);
      var rest :- ParseData(lines[1..]);
      if p.callType == "toplevel" then Ok(rest) else Ok([p] + rest)
  }

  /** The record of a line when `load_data` keeps it. */
  function Kept(line: string): (r: Option<PrettyCall>)
    ensures r.Some? <==> ParseRecord(line).Ok? && ParseRecord(line).value.callType != "toplevel"
    ensures r.Some? ==> r.value == ParseRecord(line).value
  {
    match ParseRecord(line)
    case Ok(p) => if p.callType == "toplevel" then None else Some(p)
    case Err(_) => None
  }

  /** Line by line, the record kept from it, if any. */
  function KeptRecords(lines: seq<string>): (r: seq<Option<PrettyCall>>)
    ensures |r| == |lines|
  {
    seq(|lines|, i requires 0 <= i < |lines| => Kept(lines[i]))
  }

  /** `out` lists the `Some` values of `ks` at the strictly increasing
      positions `idx`, all from `lo` on, and `idx` names every position from
      `lo` on that holds a value. */
  ghost predicate SelectsSome<T>(ks: seq<Option<T>>, lo: int, idx: seq<int>, out: seq<T>) {
    && |idx| == |out|
    && (forall j :: 0 <= j < |idx| ==> 0 <= lo <= idx[j] < |ks| && ks[idx[j]] == Some(out[j]))
    && (forall j, k :: 0 <= j < k < |idx| ==> idx[j] < idx[k])
    && (forall i :: 0 <= lo <= i < |ks| && ks[i].Some? ==> i in idx)
  }

  /** The data are the kept records of the file, in line order, each as often
      as its lines hold it, and nothing else. */
  lemma {:induction false} ParseDataSelects(lines: seq<string>)
    ensures ParseData(lines).Ok? ==> exists idx :: SelectsSome(KeptRecords(lines), 0, idx, ParseData(lines).value)
  {
    var ks := KeptRecords(lines);
    if lines == [] {
      assert SelectsSome(ks, 0, [], []);
    } else if ParseData(lines).Ok? {
      var rest := lines[1..];
      ParseDataSelects(rest);
      var idx' :| SelectsSome(KeptRecords(rest), 0, idx', ParseData(rest).value);
      assert KeptRecords(rest) == ks[1..];
      var shifted := seq(|idx'|, j requires 0 <= j < |idx'| => idx'[j] + 1);
      SelectsShift(ks, idx', shifted, ParseData(rest).value);
      assert ks[0] == Kept(lines[0]);
      if ks[0].Some? {
        assert ParseData(lines).value == [ks[0].value] + ParseData(rest).value;
        SelectsKeep(ks, shifted, ParseData(rest).value);
      } else {
        assert ParseData(lines).value == ParseData(rest).value;
        SelectsSkip(ks, shifted, ParseData(rest).value);
      }
    }
  }

  /** A selection from the tail, shifted by one, selects from position 1 on. */
  lemma SelectsShift<T>(ks: seq<Option<T>>, idx': seq<int>, shifted: seq<int>, out: seq<T>)
    requires ks != []
    requires SelectsSome(ks[1..], 0, idx', out)
    requires |shifted| == |idx'| && forall j :: 0 <= j < |idx'| ==> shifted[j] == idx'[j] + 1
    ensures SelectsSome(ks, 1, shifted, out)
  {
    forall j | 0 <= j < |shifted| ensures ks[shifted[j]] == Some(out[j]) {
      assert ks[shifted[j]] == ks[1..][idx'[j]];
    }
    forall i | 1 <= i < |ks| && ks[i].Some? ensures i in shifted {
      assert ks[1..][i - 1] == ks[i];
      var j :| 0 <= j < |idx'| && idx'[j] == i - 1;
      assert shifted[j] == i;
    }
  }

  /** A value at position 0 goes in front of a selection from position 1 on. */
  lemma SelectsKeep<T>(ks: seq<Option<T>>, idx: seq<int>, out: seq<T>)
    requires ks != [] && ks[0].Some?
    requires SelectsSome(ks, 1, idx, out)
    ensures SelectsSome(ks, 0, [0] + idx, [ks[0].value] + out)
  {
    var idx0 := [0] + idx;
    forall i | 0 < i < |ks| && ks[i].Some? ensures i in idx0 {
      assert i in idx;
    }
  }

  /** An empty position 0 leaves a selection from position 1 on complete. */
  lemma SelectsSkip<T>(ks: seq<Option<T>>, idx: seq<int>, out: seq<T>)
    requires ks != [] && ks[0].None?
    requires SelectsSome(ks, 1, idx, out)
    ensures SelectsSome(ks, 0, idx, out)
  {
  }

  /** `load_data`. */
  function LoadData(file: Option<string>): Result<seq<PrettyCall>> {
    match file
    case None => Err("Failed to read data file")
    case Some(text) => ParseData(Lines(text))
  }

  // ---------------------------------------------------------------------
  // Rows of one sheet
  // ---------------------------------------------------------------------

  /** Records whose `to` is the target, in data order. */
  function Inbound(t: Target, data: seq<PrettyCall>): seq<PrettyCall> {
    if data == [] then []
    else if data[0].to == t.address then [data[0]] + Inbound(t, data[1..])
    else Inbound(t, data[1..])
  }

  /** Records whose `from` is the target, in data order. */
  function Outbound(t: Target, data: seq<PrettyCall>): seq<PrettyCall> {
    if data == [] then []
    else if data[0].from == t.address then [data[0]] + Outbound(t, data[1..])
    else Outbound(t, data[1..])
  }

  /** The groups keep data order: grouping distributes over concatenation,
      and a single record is in a group exactly when it matches. */
  lemma {:induction false} GroupsConcat(t: Target, a: seq<PrettyCall>, b: seq<PrettyCall>)
    ensures Inbound(t, a + b) == Inbound(t, a) + Inbound(t, b)
    ensures Outbound(t, a + b) == Outbound(t, a) + Outbound(t, b)
    ensures |a| == 1 ==> Inbound(t, a) == (if a[0].to == t.address then a else [])
    ensures |a| == 1 ==> Outbound(t, a) == (if a[0].from == t.address then a else [])
  {
    if a == [] {
      assert a + b == b;
    } else {
      assert (a + b)[0] == a[0];
      assert (a + b)[1..] == a[1..] + b;
      GroupsConcat(t, a[1..], b);
      if |a| == 1 {
        assert a[1..] == [];
      }
    }
  }

  /** Each record occurs in the inbound group exactly as often as in the data
      when its `to` is the target, and not at all otherwise; likewise for the
      outbound group and `from`. */
  lemma {:induction false} GroupCounts(t: Target, data: seq<PrettyCall>, p: PrettyCall)
    ensures multiset(Inbound(t, data))[p] == if p.to == t.address then multiset(data)[p] else 0
    ensures multiset(Outbound(t, data))[p] == if p.from == t.address then multiset(data)[p] else 0
  {
    if data != [] {
      GroupCounts(t, data[1..], p);
      assert data == [data[0]] + data[1..];
    }
  }

  function FromNameKey(p: PrettyCall): string { p.fromName }
  function ToNameKey(p: PrettyCall): string { p.toName }

  /** Inbound records by descending `from_name`, then outbound records by
      descending `to_name`. */
  function Ordered(t: Target, data: seq<PrettyCall>): seq<PrettyCall> {
    SortDesc(Inbound(t, data), FromNameKey) + SortDesc(Outbound(t, data), ToNameKey)
  }

  /** The order of the data rows: the first `|Inbound|` rows are the inbound
      records sorted stably by descending from-name, the rest the outbound
      records sorted stably by descending to-name. */
  lemma OrderedRows(t: Target, data: seq<PrettyCall>)
    ensures var o := Ordered(t, data);
      var n := |Inbound(t, data)|;
      && |o| == n + |Outbound(t, data)|
      && SortedDesc(o[..n], FromNameKey)
      && multiset(o[..n]) == multiset(Inbound(t, data))
      && (forall k :: WithKey(o[..n], FromNameKey, k) == WithKey(Inbound(t, data), FromNameKey, k))
      && SortedDesc(o[n..], ToNameKey)
      && multiset(o[n..]) == multiset(Outbound(t, data))
      && (forall k :: WithKey(o[n..], ToNameKey, k) == WithKey(Outbound(t, data), ToNameKey, k))
  {
    SortDescCorrect(Inbound(t, data), FromNameKey);
    SortDescCorrect(Outbound(t, data), ToNameKey);
    var a := SortDesc(Inbound(t, data), FromNameKey);
    var b := SortDesc(Outbound(t, data), ToNameKey);
    assert |a| == |Inbound(t, data)| by {
      assert |multiset(a)| == |multiset(Inbound(t, data))|;
    }
    assert |b| == |Outbound(t, data)| by {
      assert |multiset(b)| == |multiset(Outbound(t, data))|;
    }
    assert (a + b)[..|a|] == a;
    assert (a + b)[|a|..] == b;
  }

  /** A call from the target to itself is listed twice, once in each group. */
  lemma SelfCallTwice(t: Target, data: seq<PrettyCall>, p: PrettyCall)
    requires p in data && p.from == t.address && p.to == t.address
    ensures multiset(Ordered(t, data))[p] == 2 * multiset(data)[p]
  {
    GroupCounts(t, data, p);
    SortDescCorrect(Inbound(t, data), FromNameKey);
    SortDescCorrect(Outbound(t, data), ToNameKey);
  }

  // ---------------------------------------------------------------------
  // Cell formats
  // ---------------------------------------------------------------------

  /** The formats of the sheet (all share the monospace font): plain, bold
      for headings, the target colour and the other-target colour. */
  datatype Format = Default | Bold | Primary | OtherTarget

  datatype Cell = Cell(text: string, format: Format)

  predicate IsTargetAddress(targets: seq<Target>, address: string) {
    exists i :: 0 <= i < |targets| && targets[i].address == address
  }

  /** A data row as the program writes it: six plain cells, then the
      other-target colour on to/to-name when `to` is any watched address, then
      on from/from-name when `from` is, then the target colour on to/to-name
      when `to` is the target and on from/from-name otherwise. Each later
      write replaces the earlier format of the same cell. */
  function DataRow(p: PrettyCall, t: Target, targets: seq<Target>): (r: seq<Cell>)
    ensures |r| == 6
    ensures forall i :: 0 <= i < 6 ==> r[i].text == Fields(p)[i]
  {
    var c := [Cell(p.callType, Default), Cell(p.signature, Default), Cell(p.from, Default),
              Cell(p.to, Default), Cell(p.fromName, Default), Cell(p.toName, Default)];
    var c := if IsTargetAddress(targets, p.to)
      then c[3 := c[3].(format := OtherTarget)][5 := c[5].(format := OtherTarget)] else c;
    var c := if IsTargetAddress(targets, p.from)
      then c[2 := c[2].(format := OtherTarget)][4 := c[4].(format := OtherTarget)] else c;
    if p.to == t.address
    then c[3 := c[3].(format := Primary)][5 := c[5].(format := Primary)]
    else c[2 := c[2].(format := Primary)][4 := c[4].(format := Primary)]
  }

  /** Final format of the To / To Name cells: the target colour when `to` is
      the target, else the other-target colour when `to` is on the watch
      list, else plain. */
  function ToSideFormat(p: PrettyCall, t: Target, targets: seq<Target>): Format {
    if p.to == t.address then Primary
    else if IsTargetAddress(targets, p.to) then OtherTarget
    else Default
  }

  /** Final format of the From / From Name cells: the target colour whenever
      `to` is not the target, else the other-target colour when `from` is on
      the watch list (the target itself included), else plain. */
  function FromSideFormat(p: PrettyCall, t: Target, targets: seq<Target>): Format {
    if p.to != t.address then Primary
    else if IsTargetAddress(targets, p.from) then OtherTarget
    else Default
  }

  /** The sequence of overriding writes ends in the precedence above; call
      type and signature stay plain. */
  lemma DataRowFormats(p: PrettyCall, t: Target, targets: seq<Target>)
    ensures var r := DataRow(p, t, targets);
      && r[0].format == Default && r[1].format == Default
      && r[2].format == FromSideFormat(p, t, targets) && r[4].format == FromSideFormat(p, t, targets)
      && r[3].format == ToSideFormat(p, t, targets) && r[5].format == ToSideFormat(p, t, targets)
  {
  }

  /** Exactly one side of every row carries the target colour. */
  lemma OnePrimarySide(p: PrettyCall, t: Target, targets: seq<Target>)
    ensures (ToSideFormat(p, t, targets) == Primary) != (FromSideFormat(p, t, targets) == Primary)
  {
  }

  // ---------------------------------------------------------------------
  // Sheets and the workbook
  // ---------------------------------------------------------------------

  /** A sheet: its name and its rows of cells, row `i` of the sequence being
      spreadsheet row `i`; an empty row has no cells written. */
  datatype Sheet = Sheet(name: string, rows: seq<seq<Cell>>)

  const ColumnTitles: seq<string> := ["Call Type", "Signature", "From", "To", "From Name", "To Name"]

  /** First spreadsheet row holding data. */
  const DataStartRow: nat := 4

  function Header(t: Target): seq<seq<Cell>> {
    [ [Cell("Target Address", Bold), Cell("Target Label", Bold)],
      [Cell(t.address, Default), Cell(t.name, Default)],
      [],
      seq(6, i requires 0 <= i < 6 => Cell(ColumnTitles[i], Bold)) ]
  }

  function DataRows(records: seq<PrettyCall>, t: Target, targets: seq<Target>): (r: seq<seq<Cell>>)
    ensures |r| == |records|
    ensures forall i :: 0 <= i < |records| ==> r[i] == DataRow(records[i], t, targets)
  {
    if records == [] then [] else [DataRow(records[0], t, targets)] + DataRows(records[1..], t, targets)
  }

  /** Rows a worksheet can hold (rows `0` to `MaxRows - 1`); writing a cell
      in a later row is an error of the spreadsheet library. */
  const MaxRows: nat := 1_048_576

  /** The rows `create_sheet_for_target` writes, with no row limit. */
  function SheetRows(t: Target, targets: seq<Target>, data: seq<PrettyCall>): seq<seq<Cell>> {
    Header(t) + DataRows(Ordered(t, data), t, targets)
  }

  /** `create_sheet_for_target`: a sheet named by the label; the first write
      past the last row the library allows fails the whole call. Row indices
      below `MaxRows` fit in a `u32`, so the conversion never fails first. */
  function CreateSheet(t: Target, targets: seq<Target>, data: seq<PrettyCall>): (r: Result<Sheet>)
  {
    var rows := SheetRows(t, targets, data);
    if |rows| > MaxRows then Err("row number exceeds the worksheet's row limit")
    else Ok(Sheet(t.name, rows))
  }

  /** Sheet layout: the sheet can be written exactly when its last data row
      is within the row limit. It is then named by the label, with titles in
      row 0, the target's address and label in row 1, row 2 empty, bold
      column names in row 3, and data record `i` of the inbound-then-outbound
      order in row `4 + i`, one row per record of the two groups. */
  lemma SheetLayout(t: Target, targets: seq<Target>, data: seq<PrettyCall>)
    ensures CreateSheet(t, targets, data).Ok? <==>
      DataStartRow + |Inbound(t, data)| + |Outbound(t, data)| <= MaxRows
    ensures CreateSheet(t, targets, data).Ok? ==> var s := CreateSheet(t, targets, data).value;
      && s.name == t.name
      && |s.rows| == DataStartRow + |Inbound(t, data)| + |Outbound(t, data)|
      && s.rows[0] == [Cell("Target Address", Bold), Cell("Target Label", Bold)]
      && s.rows[1] == [Cell(t.address, Default), Cell(t.name, Default)]
      && s.rows[2] == []
      && |s.rows[3]| == 6
      && (forall j :: 0 <= j < 6 ==> s.rows[3][j] == Cell(ColumnTitles[j], Bold))
      && forall i :: 0 <= i < |Ordered(t, data)| ==>
           s.rows[DataStartRow + i] == DataRow(Ordered(t, data)[i], t, targets)
  {
    SortDescLength(Inbound(t, data), FromNameKey);
    SortDescLength(Outbound(t, data), ToNameKey);
  }

  /** The sheets for `ts`, in order, stopping at the first that fails. */
  function CreateSheets(ts: seq<Target>, targets: seq<Target>, data: seq<PrettyCall>): (r: Result<seq<Sheet>>)
    ensures r.Ok? <==> forall i :: 0 <= i < |ts| ==> CreateSheet(ts[i], targets, data).Ok?
    ensures r.Ok? ==> |r.value| == |ts|
    ensures r.Ok? ==> forall i :: 0 <= i < |ts| ==> CreateSheet(ts[i], targets, data) == Ok(r.value[i])
  {
    if ts == [] then Ok([])
    else
      var s :- CreateSheet(ts[0], targets, data);
      var rest :- CreateSheets(ts[1..], targets, data);
      Ok([s] + rest)
  }

  /** `main`: load the data, then the targets, then one sheet per target in
      file order; the first failure ends the program before anything is
      saved. */
  function Main(targetsFile: Option<string>, dataFile: Option<string>): (r: Result<seq<Sheet>>)
    ensures LoadData(dataFile).Err? ==> r == Err(LoadData(dataFile).msg)
    ensures LoadData(dataFile).Ok? && LoadTargets(targetsFile).Err? ==> r == Err(LoadTargets(targetsFile).msg)
    ensures r.Ok? <==> && LoadData(dataFile).Ok? && LoadTargets(targetsFile).Ok?
                       && forall i :: 0 <= i < |LoadTargets(targetsFile).value| ==>
                            CreateSheet(LoadTargets(targetsFile).value[i], LoadTargets(targetsFile).value, LoadData(dataFile).value).Ok?
    ensures r.Ok? ==> |r.value| == |LoadTargets(targetsFile).value|
    ensures r.Ok? ==> forall i :: 0 <= i < |r.value| ==>
      CreateSheet(LoadTargets(targetsFile).value[i], LoadTargets(targetsFile).value, LoadData(dataFile).value) == Ok(r.value[i])
  {
    var data :- LoadData(dataFile);
    var targets :- LoadTargets(targetsFile);
    CreateSheets(targets, targets, data)
  }

  /** Each group holds at most as many records as the data. */
  lemma {:induction false} GroupsBounded(t: Target, data: seq<PrettyCall>)
    ensures |Inbound(t, data)| <= |data| && |Outbound(t, data)| <= |data|
  {
    if data != [] {
      GroupsBounded(t, data[1..]);
    }
  }

  /** With both files readable and parsable, the program fails only for a data
      file too large for one sheet: when every record fits twice below the row
      limit, one sheet is produced per target. */
  lemma MainSucceeds(targetsFile: Option<string>, dataFile: Option<string>)
    requires LoadData(dataFile).Ok? && LoadTargets(targetsFile).Ok?
    requires DataStartRow + 2 * |LoadData(dataFile).value| <= MaxRows
    ensures Main(targetsFile, dataFile).Ok?
    ensures |Main(targetsFile, dataFile).value| == |LoadTargets(targetsFile).value|
  {
    var data := LoadData(dataFile).value;
    var targets := LoadTargets(targetsFile).value;
    forall i | 0 <= i < |targets| ensures CreateSheet(targets[i], targets, data).Ok? {
      GroupsBounded(targets[i], data);
      SheetLayout(targets[i], targets, data);
    }
  }
}

=== FILE: text.dfy ===
/** The string operations of Rust's `str` that the programs rely on, over
    `string` = `seq<char>` (one `char` per Unicode scalar value). */
module Text {

  import opened Wrappers

  // ---------------------------------------------------------------------
  // ASCII case mapping (`to_ascii_lowercase`, `make_ascii_lowercase`)
  // ---------------------------------------------------------------------

  predicate IsAsciiUpper(c: char) {
    'A' <= c <= 'Z'
  }

  function AsciiLowerChar(c: char): char {
    if IsAsciiUpper(c) then (c as int + 32) as char else c
  }

  /** Lower-cases the ASCII letters of `s` and leaves every other character alone. */
  function AsciiLower(s: string): (r: string)
    ensures |r| == |s|
  {
    if s == [] then [] else [AsciiLowerChar(s[0])] + AsciiLower(s[1..])
  }

  /** Lower-casing works character by character. */
  lemma {:induction false} AsciiLowerAt(s: string)
    ensures forall i :: 0 <= i < |s| ==> AsciiLower(s)[i] == AsciiLowerChar(s[i])
  {
    if s != [] {
      AsciiLowerAt(s[1..]);
      assert forall i :: 1 <= i < |s| ==> AsciiLower(s)[i] == AsciiLower(s[1..])[i - 1];
    }
  }

  /** After lower-casing, no ASCII upper-case letter is left, and lower-casing
      again changes nothing. */
  lemma AsciiLowerNormal(s: string)
    ensures forall i :: 0 <= i < |s| ==> !IsAsciiUpper(AsciiLower(s)[i])
    ensures AsciiLower(AsciiLower(s)) == AsciiLower(s)
  {
    AsciiLowerAt(s);
    AsciiLowerAt(AsciiLower(s));
  }

  /** Lower-cases every string of a sequence. */
  function AsciiLowerAll(ss: seq<string>): (r: seq<string>)
    ensures |r| == |ss|
    ensures forall i :: 0 <= i < |ss| ==> r[i] == AsciiLower(ss[i])
  {
    if ss == [] then [] else [AsciiLower(ss[0])] + AsciiLowerAll(ss[1..])
  }

  predicate IsAsciiLetter(c: char) {
    'A' <= c <= 'Z' || 'a' <= c <= 'z'
  }

  // ---------------------------------------------------------------------
  // Whitespace trimming (`str::trim`)
  // ---------------------------------------------------------------------

  /** Unicode `White_Space`, the property `str::trim` strips. */
  predicate IsWhitespace(c: char) {
    var n := c as int;
    || 0x09 <= n <= 0x0D
    || n == 0x20
    || n == 0x85
    || n == 0xA0
    || n == 0x1680
    || 0x2000 <= n <= 0x200A
    || n == 0x2028
    || n == 0x2029
    || n == 0x202F
    || n == 0x205F
    || n == 0x3000
  }

  predicate AllWhitespace(s: string) {
    forall i :: 0 <= i < |s| ==> IsWhitespace(s[i])
  }

  /** `s` without its leading white space. */
  function TrimStart(s: string): string {
    if s != [] && IsWhitespace(s[0]) then TrimStart(s[1..]) else s
  }

  /** `TrimStart` removes a prefix that is all white space, and what is left
      does not start with any. */
  lemma {:induction false} TrimStartRemoves(s: string)
    ensures TrimStart(s) == [] || !IsWhitespace(TrimStart(s)[0])
    ensures |TrimStart(s)| <= |s|
    ensures TrimStart(s) == s[|s| - |TrimStart(s)|..]
    ensures AllWhitespace(s[..|s| - |TrimStart(s)|])
  {
    if s != [] && IsWhitespace(s[0]) {
      TrimStartRemoves(s[1..]);
      var k := |s| - |TrimStart(s)|;
      assert s[1..][k - 1..] == s[k..];
      var cut := s[..k];
      forall i | 0 <= i < |cut| ensures IsWhitespace(cut[i]) {
        if i > 0 {
          assert cut[i] == s[1..][..k - 1][i - 1];
        }
      }
    } else {
      assert s[..0] == [];
    }
  }

  /** `s` without its trailing white space. */
  function TrimEnd(s: string): string {
    if s != [] && IsWhitespace(s[|s| - 1]) then TrimEnd(s[..|s| - 1]) else s
  }

  /** `TrimEnd` removes a suffix that is all white space, and what is left
      does not end with any. */
  lemma {:induction false} TrimEndRemoves(s: string)
    ensures TrimEnd(s) == [] || !IsWhitespace(TrimEnd(s)[|TrimEnd(s)| - 1])
    ensures |TrimEnd(s)| <= |s|
    ensures TrimEnd(s) == s[..|TrimEnd(s)|]
    ensures AllWhitespace(s[|TrimEnd(s)|..])
  {
    if s != [] && IsWhitespace(s[|s| - 1]) {
      var init := s[..|s| - 1];
      TrimEndRemoves(init);
      var k := |TrimEnd(s)|;
      assert init[..k] == s[..k];
      var cut := s[k..];
      forall i | 0 <= i < |cut| ensures IsWhitespace(cut[i]) {
        if i < |cut| - 1 {
          assert cut[i] == init[k..][i];
        }
      }
    } else {
      assert s[|s|..] == [];
    }
  }

  /** `str::trim`: `s` without its leading and trailing white space. */
  function Trim(s: string): string {
    TrimEnd(TrimStart(s))
  }

  /** `Trim` keeps a middle segment of `s`: only white space is cut on
      either side, and the segment neither starts nor ends with any. */
  lemma {:induction false} TrimKeepsMiddle(s: string)
    ensures exists a, b :: 0 <= a <= b <= |s| && Trim(s) == s[a..b] && AllWhitespace(s[..a]) && AllWhitespace(s[b..])
    ensures Trim(s) == [] || (!IsWhitespace(Trim(s)[0]) && !IsWhitespace(Trim(s)[|Trim(s)| - 1]))
  {
    var t := TrimStart(s);
    TrimStartRemoves(s);
    TrimEndRemoves(t);
    var a := |s| - |t|;
    var b := a + |TrimEnd(t)|;
    assert Trim(s) == s[a..b];
    assert s[b..] == t[|TrimEnd(t)|..];
    if Trim(s) != [] {
      assert Trim(s)[0] == t[0];
    }
  }

  // ---------------------------------------------------------------------
  // Splitting and joining on a separator (`str::split(char)`)
  // ---------------------------------------------------------------------

  /** `s.split(sep)`: the maximal separator-free pieces of `s`, always at
      least one (the empty string splits into one empty piece). */
  function Split(s: string, sep: char): (r: seq<string>)
    ensures |r| >= 1
    ensures forall i :: 0 <= i < |r| ==> sep !in r[i]
  {
    if s == [] then [""]
    else if s[0] == sep then [""] + Split(s[1..], sep)
    else
      var rest := Split(s[1..], sep);
      [[s[0]] + rest[0]] + rest[1..]
  }

  /** The pieces glued back together with `sep` between neighbours. */
  function Join(parts: seq<string>, sep: char): string
    requires |parts| >= 1
  {
    if |parts| == 1 then parts[0] else parts[0] + [sep] + Join(parts[1..], sep)
  }

  /** Splitting loses nothing: joining the pieces restores the input. */
  lemma {:induction false} JoinSplit(s: string, sep: char)
    ensures Join(Split(s, sep), sep) == s
  {
    if s == [] {
    } else if s[0] == sep {
      JoinSplit(s[1..], sep);
      assert s == [sep] + s[1..];
    } else {
      JoinSplit(s[1..], sep);
      var rest := Split(s[1..], sep);
      if |rest| == 1 {
        assert s == [s[0]] + s[1..];
      } else {
        assert Join(rest, sep) == rest[0] + [sep] + Join(rest[1..], sep);
        assert s == [s[0]] + s[1..];
      }
    }
  }

  /** A separator-free prefix is glued onto the first piece of the rest. */
  lemma {:induction false} SplitPrefix(a: string, rest: string, sep: char)
    requires sep !in a
    ensures Split(a + rest, sep) == [a + Split(rest, sep)[0]] + Split(rest, sep)[1..]
  {
    if a != [] {
      assert (a + rest)[0] == a[0];
      assert (a + rest)[1..] == a[1..] + rest;
      SplitPrefix(a[1..], rest, sep);
      assert [a[0]] + (a[1..] + Split(rest, sep)[0]) == a + Split(rest, sep)[0];
    } else {
      var p := Split(rest, sep);
      assert a + rest == rest;
      assert a + p[0] == p[0];
      assert [p[0]] + p[1..] == p;
    }
  }

  /** Joining separator-free pieces and splitting again gives the pieces back. */
  lemma {:induction false} SplitJoin(parts: seq<string>, sep: char)
    requires |parts| >= 1
    requires forall i :: 0 <= i < |parts| ==> sep !in parts[i]
    ensures Split(Join(parts, sep), sep) == parts
  {
    if |parts| == 1 {
      SplitPrefix(parts[0], "", sep);
      assert parts[0] + "" == parts[0];
    } else {
      var tail := Join(parts[1..], sep);
      SplitJoin(parts[1..], sep);
      assert ([sep] + tail)[0] == sep && ([sep] + tail)[1..] == tail;
      assert Split([sep] + tail, sep) == [""] + parts[1..];
      SplitPrefix(parts[0], [sep] + tail, sep);
      assert parts[0] + ([sep] + tail) == parts[0] + [sep] + tail;
      assert parts[0] + "" == parts[0];
    }
  }

  /** Lower-casing commutes with splitting on a separator that is not a letter. */
  lemma {:induction false} SplitAsciiLower(s: string, sep: char)
    requires !IsAsciiLetter(sep)
    ensures Split(AsciiLower(s), sep) == AsciiLowerAll(Split(s, sep))
  {
    if s != [] {
      var l := AsciiLower(s);
      assert l[0] == AsciiLowerChar(s[0]) && l[1..] == AsciiLower(s[1..]);
      SplitAsciiLower(s[1..], sep);
      if s[0] != sep {
        var rest := Split(s[1..], sep);
        assert AsciiLower([s[0]] + rest[0]) == [AsciiLowerChar(s[0])] + AsciiLower(rest[0]);
      }
    }
  }

  // ---------------------------------------------------------------------
  // Lines (`str::lines`)
  // ---------------------------------------------------------------------

  function StripCr(line: string): string {
    if line != [] && line[|line| - 1] == '\r' then line[..|line| - 1] else line
  }

  function StripCrAll(lines: seq<string>): (r: seq<string>)
    ensures |r| == |lines|
    ensures forall i :: 0 <= i < |lines| ==> r[i] == StripCr(lines[i])
  {
    if lines == [] then [] else [StripCr(lines[0])] + StripCrAll(lines[1..])
  }

  /** `s.lines()`: the pieces between `\n` characters, a trailing `\r` removed
      from each terminated piece, and no final empty piece when `s` ends with
      a line ending (so the empty string has no lines). */
  function Lines(s: string): seq<string> {
    LinesOfPieces(Split(s, '\n'))
  }

  /** The lines given the pieces between `\n` characters. */
  function LinesOfPieces(p: seq<string>): seq<string>
    requires |p| >= 1
  {
    var last := p[|p| - 1];
    if last == "" then StripCrAll(p[..|p| - 1]) else StripCrAll(p[..|p| - 1]) + [last]
  }

  lemma StripCrAsciiLower(x: string)
    ensures StripCr(AsciiLower(x)) == AsciiLower(StripCr(x))
  {
    AsciiLowerAt(x);
    AsciiLowerAt(StripCr(x));
    if x != [] && x[|x| - 1] == '\r' {
      assert AsciiLower(x)[..|x| - 1] == AsciiLower(x[..|x| - 1]);
    }
  }

  lemma StripCrAllAsciiLower(ls: seq<string>)
    ensures StripCrAll(AsciiLowerAll(ls)) == AsciiLowerAll(StripCrAll(ls))
  {
    forall i | 0 <= i < |ls| ensures StripCrAll(AsciiLowerAll(ls))[i] == AsciiLowerAll(StripCrAll(ls))[i] {
      StripCrAsciiLower(ls[i]);
    }
  }

  lemma {:induction false} AsciiLowerAllAppend(a: seq<string>, b: seq<string>)
    ensures AsciiLowerAll(a + b) == AsciiLowerAll(a) + AsciiLowerAll(b)
  {
    if a == [] {
      assert a + b == b;
    } else {
      assert (a + b)[0] == a[0];
      assert (a + b)[1..] == a[1..] + b;
      AsciiLowerAllAppend(a[1..], b);
    }
  }

  lemma AsciiLowerEmpty(x: string)
    ensures (AsciiLower(x) == "") == (x == "")
  {
    assert |AsciiLower(x)| == |x|;
  }

  lemma AsciiLowerAllSnoc(a: seq<string>, x: string)
    ensures AsciiLowerAll(a + [x]) == AsciiLowerAll(a) + [AsciiLower(x)]
  {
    AsciiLowerAllAppend(a, [x]);
    assert AsciiLowerAll([x]) == [AsciiLower(x)];
  }

  lemma LinesOfPiecesAsciiLower(p: seq<string>)
    requires |p| >= 1
    ensures LinesOfPieces(AsciiLowerAll(p)) == AsciiLowerAll(LinesOfPieces(p))
  {
    var q := AsciiLowerAll(p);
    var n := |p| - 1;
    var init := StripCrAll(p[..n]);
    var linit := StripCrAll(q[..n]);
    assert q[..n] == AsciiLowerAll(p[..n]);
    StripCrAllAsciiLower(p[..n]);
    AsciiLowerEmpty(p[n]);
    if p[n] == "" {
      assert LinesOfPieces(q) == linit;
    } else {
      assert LinesOfPieces(q) == linit + [AsciiLower(p[n])];
      AsciiLowerAllSnoc(init, p[n]);
    }
  }

  /** Lower-casing commutes with splitting into lines. */
  lemma LinesAsciiLower(s: string)
    ensures Lines(AsciiLower(s)) == AsciiLowerAll(Lines(s))
  {
    SplitAsciiLower(s, '\n');
    LinesOfPiecesAsciiLower(Split(s, '\n'));
  }

  /** The text of a file holding `lines`, each followed by `\n`. */
  function UnLines(lines: seq<string>): string {
    if lines == [] then "" else lines[0] + "\n" + UnLines(lines[1..])
  }

  predicate IsLine(line: string) {
    '\n' !in line && (line == [] || line[|line| - 1] != '\r')
  }

  lemma {:induction false} UnLinesIsJoin(lines: seq<string>)
    ensures UnLines(lines) == Join(lines + [""], '\n')
  {
    if lines != [] {
      UnLinesIsJoin(lines[1..]);
      assert (lines + [""])[1..] == lines[1..] + [""];
    }
  }

  /** Writing lines out and reading them back with `lines()` is the identity. */
  lemma LinesUnLines(lines: seq<string>)
    requires forall i :: 0 <= i < |lines| ==> IsLine(lines[i])
    ensures Lines(UnLines(lines)) == lines
  {
    UnLinesIsJoin(lines);
    var p := lines + [""];
    SplitJoin(p, '\n');
    assert p[..|p| - 1] == lines;
    StripCrAllLines(lines);
  }

  /** Whole lines carry no `\r` to strip. */
  lemma StripCrAllLines(lines: seq<string>)
    requires forall i :: 0 <= i < |lines| ==> IsLine(lines[i])
    ensures StripCrAll(lines) == lines
  {
  }

  /** Lines of a concatenation of whole-line texts. */
  lemma {:induction false} UnLinesAppend(a: seq<string>, b: seq<string>)
    ensures UnLines(a + b) == UnLines(a) + UnLines(b)
  {
    if a != [] {
      UnLinesAppend(a[1..], b);
      assert (a + b)[1..] == a[1..] + b;
    } else {
      assert a + b == b;
    }
  }

  // ---------------------------------------------------------------------
  // Substring search (`str::contains`, and an escaped-literal regex match)
  // ---------------------------------------------------------------------

  /** `p` is an initial segment of `s`. */
  predicate IsPrefix<T(==)>(p: seq<T>, s: seq<T>) {
    |p| <= |s| && s[..|p|] == p
  }

  /** `hay.contains(needle)`; the empty needle occurs in every string. */
  predicate Contains(hay: string, needle: string) {
    IsPrefix(needle, hay) || (hay != [] && Contains(hay[1..], needle))
  }

  /** `needle` occurs in `hay` starting at offset `k`. */
  predicate OccursAt(hay: string, needle: string, k: nat) {
    k + |needle| <= |hay| && hay[k..k + |needle|] == needle
  }

  /** `Contains` holds exactly when `needle` occurs at some offset of `hay`. */
  lemma {:induction false} ContainsAt(hay: string, needle: string)
    ensures Contains(hay, needle) <==> exists k: nat :: OccursAt(hay, needle, k)
  {
    if IsPrefix(needle, hay) {
      assert OccursAt(hay, needle, 0);
    } else if hay != [] {
      ContainsAt(hay[1..], needle);
      if Contains(hay[1..], needle) {
        var k: nat :| OccursAt(hay[1..], needle, k);
        assert hay[k + 1..k + 1 + |needle|] == hay[1..][k..k + |needle|];
        assert OccursAt(hay, needle, k + 1);
      }
      if k: nat :| OccursAt(hay, needle, k) {
        assert k != 0;
        assert hay[1..][k - 1..k - 1 + |needle|] == hay[k..k + |needle|];
        assert OccursAt(hay[1..], needle, k - 1);
      }
    }
  }

  /** Every character of a contained needle is a character of the haystack. */
  lemma {:induction false} ContainsChars(hay: string, needle: string, i: nat)
    requires Contains(hay, needle)
    requires i < |needle|
    ensures needle[i] in hay
  {
    if IsPrefix(needle, hay) {
      assert hay[i] == needle[i];
    } else {
      ContainsChars(hay[1..], needle, i);
    }
  }

  // ---------------------------------------------------------------------
  // Lexicographic order (`Ord for str`: byte order of UTF-8 is code-point order)
  // ---------------------------------------------------------------------

  predicate StrLe(a: string, b: string) {
    a == [] || (b != [] && (a[0] < b[0] || (a[0] == b[0] && StrLe(a[1..], b[1..]))))
  }

  lemma {:induction false} StrLeTotal(a: string, b: string)
    ensures StrLe(a, b) || StrLe(b, a)
  {
    if a != [] && b != [] && a[0] == b[0] {
      StrLeTotal(a[1..], b[1..]);
    }
  }

  lemma {:induction false} StrLeTrans(a: string, b: string, c: string)
    requires StrLe(a, b) && StrLe(b, c)
    ensures StrLe(a, c)
  {
    if a != [] && a[0] == b[0] && b[0] == c[0] {
      StrLeTrans(a[1..], b[1..], c[1..]);
    }
  }
}

=== FILE: trace_filter.dfy ===
/** `dfs_has_call`, shared verbatim by the block-trace fetcher and by
    filter-block-trace, and the selection of the traces it accepts. */
module TraceMatch {

  import opened CallTree

  /** The node's own `to` is exactly `address` (case-sensitive), or some
      sub-call's subtree has such a node, trying sub-calls left to right. */
  predicate HasCall(n: Node, address: string) {
    (n.to.Str? && n.to.s == address) || AnyHasCall(n.calls, address)
  }

  predicate AnyHasCall(ns: seq<Node>, address: string) {
    ns != [] && (HasCall(ns[0], address) || AnyHasCall(ns[1..], address))
  }

  /** A node of a trace calls `address`. */
  predicate ToIs(n: Node, address: string) {
    n.to == Str(address)
  }

  /** Some node of `calls` calls `address`. */
  predicate SomeToIs(calls: seq<Node>, address: string) {
    exists i :: 0 <= i < |calls| && ToIs(calls[i], address)
  }

  /** A concatenation has a call to `address` iff one of its parts has. */
  lemma SomeToIsConcat(a: seq<Node>, b: seq<Node>, address: string)
    ensures SomeToIs(a + b, address) <==> SomeToIs(a, address) || SomeToIs(b, address)
  {
    if SomeToIs(a + b, address) {
      var i :| 0 <= i < |a + b| && ToIs((a + b)[i], address);
      if i < |a| {
        assert a[i] == (a + b)[i];
      } else {
        assert b[i - |a|] == (a + b)[i];
      }
    }
    if SomeToIs(a, address) {
      var i :| 0 <= i < |a| && ToIs(a[i], address);
      assert (a + b)[i] == a[i];
    }
    if SomeToIs(b, address) {
      var i :| 0 <= i < |b| && ToIs(b[i], address);
      assert (a + b)[|a| + i] == b[i];
    }
  }

  /** The search agrees with the flattening: it succeeds exactly when some
      node of the pre-order listing has `to == address`. */
  lemma {:induction false} HasCallFlattened(n: Node, address: string)
    ensures HasCall(n, address) <==> SomeToIs(Flatten(n), address)
  {
    AnyHasCallFlattened(n.calls, address);
    assert Flatten(n) == [n] + FlattenAll(n.calls);
    SomeToIsConcat([n], FlattenAll(n.calls), address);
    assert SomeToIs([n], address) <==> ToIs(n, address) by {
      if ToIs(n, address) {
        assert ToIs([n][0], address);
      }
    }
  }

  lemma {:induction false} AnyHasCallFlattened(ns: seq<Node>, address: string)
    ensures AnyHasCall(ns, address) <==> SomeToIs(FlattenAll(ns), address)
    decreases ns
  {
    if ns != [] {
      HasCallFlattened(ns[0], address);
      AnyHasCallFlattened(ns[1..], address);
      assert FlattenAll(ns) == Flatten(ns[0]) + FlattenAll(ns[1..]);
      SomeToIsConcat(Flatten(ns[0]), FlattenAll(ns[1..]), address);
    }
  }

  /** One element of the response's `result` array: the trace as printed and
      its `result` member (a trace without one is a node with no members). */
  datatype TraceEntry = TraceEntry(text: string, result: Node)

  /** The printing loop: the traces whose `result` has a call to `address`,
      in input order. */
  function Select(traces: seq<TraceEntry>, address: string): (r: seq<TraceEntry>)
    ensures |r| <= |traces|
    ensures forall e :: e in r ==> e in traces && HasCall(e.result, address)
  {
    if traces == [] then []
    else if HasCall(traces[0].result, address) then [traces[0]] + Select(traces[1..], address)
    else Select(traces[1..], address)
  }

  /** Selection keeps input order: it distributes over concatenation, and a
      single trace is printed exactly when it matches. */
  lemma {:induction false} SelectConcat(a: seq<TraceEntry>, b: seq<TraceEntry>, address: string)
    ensures Select(a + b, address) == Select(a, address) + Select(b, address)
    ensures |a| == 1 ==> Select(a, address) == (if HasCall(a[0].result, address) then a else [])
  {
    if a == [] {
      assert a + b == b;
    } else {
      assert (a + b)[0] == a[0];
      assert (a + b)[1..] == a[1..] + b;
      SelectConcat(a[1..], b, address);
    }
  }

  /** How the body of the node's response parses (serde, then the `result`
      member, which must be an array). */
  datatype Body = Malformed | NoResult | NotArray | Traces(entries: seq<TraceEntry>)
}

/** The block-trace fetcher (src/main.rs): trace a block on the node and
    print the transaction traces that call an address. */
module FetchBlockTraces {

  import opened Wrappers
  import opened Text
  import opened Numbers
  import opened TraceMatch

  /** `main`: exactly two arguments after the program name, a `u64` block
      number and the address. The node is an oracle from the block parameter
      to the response text; when the address does not occur in that text,
      nothing is printed. */
  function Main(args: seq<string>, rpc: string -> Option<string>, parse: string -> Body): (r: Result<seq<TraceEntry>>)
    ensures |args| != 3 ==> r.Err?
    ensures r.Ok? ==> ParseU64(args[1]).Some? && rpc(BlockParam(ParseU64(args[1]).value)).Some?
    ensures r.Ok? && !Contains(rpc(BlockParam(ParseU64(args[1]).value)).value, args[2]) ==> r.value == []
    ensures r.Ok? ==> forall e :: e in r.value ==> HasCall(e.result, args[2])
    ensures (&& |args| == 3 && ParseU64(args[1]).Some? && rpc(BlockParam(ParseU64(args[1]).value)).Some?
             && !Contains(rpc(BlockParam(ParseU64(args[1]).value)).value, args[2])) ==> r == Ok([])
  {
    if |args| != 3 then Err("Usage: <block_number> <target_address>")
    else
      var block :- Need(ParseU64(args[1]), "Failed to parse block number");
      var target := args[2];
      var text :- Need(rpc(BlockParam(block)), "Failed to send request to Ethereum node");
      if !Contains(text, target) then Ok([])
      else match parse(text)
        case Malformed => Err("Failed to parse JSON response")
        case NoResult => Err("no result in response")
        case NotArray => Err("result not an array")
        case Traces(entries) => Ok(Select(entries, target))
  }

  /** With a valid block number, a reachable node and a parsable response in
      which the address occurs, the printed traces are exactly the selection. */
  lemma MainPrintsSelection(args: seq<string>, rpc: string -> Option<string>, parse: string -> Body)
    requires |args| == 3 && ParseU64(args[1]).Some?
    requires rpc(BlockParam(ParseU64(args[1]).value)).Some?
    requires var text := rpc(BlockParam(ParseU64(args[1]).value)).value;
      Contains(text, args[2]) && parse(text).Traces?
    ensures var text := rpc(BlockParam(ParseU64(args[1]).value)).value;
      Main(args, rpc, parse) == Ok(Select(parse(text).entries, args[2]))
  {
  }
}

/** filter-block-trace: read a block's traces from standard input and print
    the ones that call an address. */
module FilterBlockTrace {

  import opened Wrappers
  import opened Text
  import opened TraceMatch

  /** `main`: the whole input is ASCII-lower-cased before anything else (the
      address argument is not); when the address does not occur in the
      lower-cased input nothing is printed; otherwise the lower-cased input
      is parsed and the matching traces are printed in order. */
  function Main(args: seq<string>, input: string, parse: string -> Body): (r: Result<seq<TraceEntry>>)
    ensures |args| < 2 ==> r.Err?
    ensures r.Ok? && !Contains(AsciiLower(input), args[1]) ==> r.value == []
    ensures r.Ok? && Contains(AsciiLower(input), args[1]) ==>
      parse(AsciiLower(input)).Traces? && r.value == Select(parse(AsciiLower(input)).entries, args[1])
    ensures |args| >= 2 && !Contains(AsciiLower(input), args[1]) ==> r == Ok([])
    ensures |args| >= 2 && Contains(AsciiLower(input), args[1]) ==>
      (r.Ok? <==> parse(AsciiLower(input)).Traces?)
    ensures |args| >= 2 && Contains(AsciiLower(input), args[1]) && parse(AsciiLower(input)).Traces? ==>
      r == Ok(Select(parse(AsciiLower(input)).entries, args[1]))
  {
    if |args| < 2 then Err("Missing target address argument")
    else
      var target := args[1];
      var lowered := AsciiLower(input);
      if !Contains(lowered, target) then Ok([])
      else match parse(lowered)
        case Malformed => Err("Failed to parse JSON input")
        case NoResult => Err("no result in response")
        case NotArray => Err("result not an array")
        case Traces(entries) => Ok(Select(entries, target))
  }

  /** An address with an upper-case ASCII letter can never occur in the
      lower-cased input, so the program prints nothing for it. */
  lemma UpperCaseTargetPrintsNothing(args: seq<string>, input: string, parse: string -> Body, k: nat)
    requires |args| >= 2 && k < |args[1]| && IsAsciiUpper(args[1][k])
    ensures Main(args, input, parse) == Ok([])
  {
    if Contains(AsciiLower(input), args[1]) {
      ContainsChars(AsciiLower(input), args[1], k);
      AsciiLowerNormal(input);
      assert false;
    }
  }
}

=== FILE: wrappers.dfy ===
/** Failure-compatible result type shared by every program of the model.
    An `Err` carries the human-readable message the source attaches to the
    failure (its `context(...)` text, or a description of the panic). */
module Wrappers {

  datatype Option<+T> = None | Some(value: T)

  datatype Result<+T> = Ok(value: T) | Err(msg: string) {

    predicate IsFailure() {
      Err?
    }

    function PropagateFailure<U>(): Result<U>
      requires Err?
    {
      Err(msg)
    }

    function Extract(): T
      requires Ok?
    {
      value
    }
  }

  /** Turns an optional value into a result, failing with `msg` on `None`
      (the `.context(msg)?` idiom of the source). */
  function Need<T>(o: Option<T>, msg: string): (r: Result<T>)
    ensures r.Ok? <==> o.Some?
    ensures r.Ok? ==> r.value == o.value
    ensures r.Err? ==> r.msg == msg
  {
    match o
    case Some(v) => Ok(v)
    case None => Err(msg)
  }
}
